=== FILE: README.md ===
# paneldesign client logic in Dafny

A model of the logic inside the React client of the trading-competition
panel. The model covers these parts:
- the competition card's money formatting, countdown boxes, duration badge and guards;
- the start countdown timer;
- the dotted-key translation lookup and the language effect;
- the theme hook and the one-button theme toggle;
- the two CSV exporters;
- the transaction and competition filter panels;
- the deposit and withdrawal dialogs;
- the wallet's balance buttons;
- the number-formatting helpers.

Each source file is one module. A few helper modules hold the JavaScript
runtime behaviour the components rely on:
- `Common` holds `Option` and truthiness.
- `Text` holds `String(n)`, `padStart`, `split`, `join` and `indexOf`.
- `Numbers` holds `parseFloat` and `Number` on decimal text. `NaN` is a value of
  its own there, and every comparison with it is false.
- `Csv` holds the line and document layout both exporters build, and a reader
  for it.
- `Ledger` holds the transaction record.

Time is whole milliseconds. The current instant (`Date.now()`) and the
reduced-motion preference are parameters. Money amounts on the card are
whole numbers here. The card rounds an amount before writing it, and that
rounding is not modelled. Wallet and dialog balances are
exact reals. The translation table is a parameter: a tree of objects with
string leaves. The stored theme and language are parameters too. So are the
document the effects write to, and the root element's class list, held as a
set of names.

Facts about the code that shape the model:
- The card knows only "not started" and "started". The Join button is
  disabled once `now` reaches the start instant. The card has no live or
  ended state tied to the end instant.
- The card's own countdown re-reads the clock every 250 ms. The standalone
  countdown timer ticks every second, or every minute with reduced motion.
- The deposit button is disabled only for an empty amount. An amount of "0"
  enables it, and clicking it then does nothing.
- The competition filter panel only builds and emits the filter record.
  Nothing in the code filters or sorts competitions by it.

## Model

| member | source | states |
|---|---|---|
| CompetitionCard.Pad2 | client/src/components/CompetitionCard.tsx:27-29 | `pad2` gives at least two characters: a zero and the digit below ten, the plain decimal from ten up |
| CompetitionCard.Pad2Value | client/src/components/CompetitionCard.tsx:27-29 | what `pad2` writes is all digits and reads back as the number |
| CompetitionCard.InsertCommasGrouped | client/src/components/CompetitionCard.tsx:32 | the separator regex leaves a string grouped in threes from the right, whose digits, commas removed, are the input's digits |
| CompetitionCard.GroupedLeading | client/src/components/CompetitionCard.tsx:32 | in a grouped number, the first comma comes after one to three digits |
| CompetitionCard.GroupedCommas | client/src/components/CompetitionCard.tsx:32 | in a grouped number, every comma is followed by exactly three digits, then a comma or the end |
| CompetitionCard.GroupedNumber | client/src/components/CompetitionCard.tsx:32 | the rounded amount's text starts with "-" exactly when negative, and deleting its commas gives back `String` of the amount: the replacement only inserts commas |
| CompetitionCard.GroupedNumberShape | client/src/components/CompetitionCard.tsx:32 | the rounded amount is written with a leading "-" exactly when negative, then grouped digits equal to the amount's magnitude, and no space |
| CompetitionCard.FormatMoney | client/src/components/CompetitionCard.tsx:31-34 | `formatMoney` writes the grouped amount, then a space and the currency when the currency is non-empty; an absent or empty currency leaves the bare amount |
| CompetitionCard.FormatMoneyShape | client/src/components/CompetitionCard.tsx:31-34 | `formatMoney` writes the grouped amount up to the first space; " " and the currency follow exactly when the currency is a non-empty string |
| CompetitionCard.DiffParts | client/src/components/CompetitionCard.tsx:36-46 | `diffParts` counts the whole seconds of `max(0, ms)`; days, hours < 24, minutes < 60 and seconds < 60 recombine to that total; anything under one second is all zeros |
| CompetitionCard.CountdownReadsBack | client/src/components/CompetitionCard.tsx:326-333 | the four countdown boxes end in d, h, m, s, and their digits read back as the days, hours, minutes and seconds |
| CompetitionCard.BoxReadsBack | client/src/components/CompetitionCard.tsx:327 | one box is at least two digits then the unit letter, and the digits read back as the part |
| CompetitionCard.CeilDiv | client/src/components/CompetitionCard.tsx:275 | `Math.ceil(a / b)` is the least q with q·b ≥ a |
| CompetitionCard.DurationHours | client/src/components/CompetitionCard.tsx:274-275 | the duration is the clamped length in hours rounded up: the least whole number of hours covering the interval |
| CompetitionCard.DurationBadge | client/src/components/CompetitionCard.tsx:276-278 | the badge is a circle exactly when under 24 hours, showing the hours with unit "H"; otherwise unit "D" with the least day count covering the hours; the value is `String` of that count |
| CompetitionCard.JoinDisabled | client/src/components/CompetitionCard.tsx:280 | Join is disabled exactly when `now` is at or past the start instant |
| CompetitionCard.PrizeText | client/src/components/CompetitionCard.tsx:319 | "No prize" is shown exactly when the prize pool is not positive; otherwise the formatted pool in the prize currency, defaulting to USDT |
| CompetitionCard.TradersText | client/src/components/CompetitionCard.tsx:348 | the traders cell is "-" exactly when the count is not positive, otherwise the count's decimal text, which reads back as the count |
| CompetitionCard.EntryFeeText | client/src/components/CompetitionCard.tsx:358 | the entry fee is always shown as the grouped amount, zero included. A space and the currency follow when the currency is non-empty, "USDT" when none is given. An empty currency leaves the bare amount |
| CountdownTimer.RefreshInterval | client/src/components/CountdownTimer.tsx:17-18 | the tick period is one minute exactly when reduced motion is preferred, else one second |
| CountdownTimer.Remaining | client/src/components/CountdownTimer.tsx:23 | the time left is the distance to the start when positive, else 0 |
| CountdownTimer.Decompose | client/src/components/CountdownTimer.tsx:31-33 | whole hours (uncapped), minutes < 60 and seconds < 60 whose milliseconds lie within one second below the time left |
| CountdownTimer.DecomposeUnique | client/src/components/CountdownTimer.tsx:31-33 | any parts with minutes and seconds under 60 that cover the time to the second are the ones computed |
| CountdownTimer.OnTick | client/src/components/CountdownTimer.tsx:20-36 | a tick fires expiry exactly when `now` is at or past the start, and the timer is expired afterwards exactly when it was before or the tick fired; expiry keeps the shown parts, otherwise they cover the time left |
| CountdownTimer.ExpiryMonotone | client/src/components/CountdownTimer.tsx:14-29 | after any ticks the timer is expired exactly when it already was or some tick came at or after the start: expiry is never undone |
| CountdownTimer.Display | client/src/components/CountdownTimer.tsx:44-62 | an expired timer shows the started text; otherwise the text ends in "s" when no hours are left and in "m" when some are |
| CountdownTimer.DisplayStartedIffExpired | client/src/components/CountdownTimer.tsx:46-48 | the "started" text is rendered exactly when the timer is expired |
| CountdownTimer.DisplaySecondsIffUnderAnHour | client/src/components/CountdownTimer.tsx:50-62 | an unexpired display ends in seconds exactly when no hours are left |
| CountdownTimer.DisplayLead | client/src/components/CountdownTimer.tsx:50-62 | an unexpired display is a number and a unit mark: h when hours are left, m when only minutes, s otherwise, with the rest of the text fixed by the mark |
| CountdownTimer.DisplayDeterminesShown | client/src/components/CountdownTimer.tsx:44-62 | two unexpired timers with the same text agree on hours and minutes, and on seconds when hours are zero |
| I18n.Child | client/src/hooks/useI18n.ts:25 | one optional-chaining step finds a value exactly when it is applied to an object that has the key, and then finds that key's value |
| I18n.Walk | client/src/hooks/useI18n.ts:24-26 | the segment loop: no segments leave the value as is, undefined stays undefined, and a value is found only by descending through an object holding the first segment |
| I18n.WalkAppend | client/src/hooks/useI18n.ts:24-26 | the key loop descends one segment at a time, in order: walking a path is walking its prefix, then the rest |
| I18n.WalkFromNothing | client/src/hooks/useI18n.ts:25 | once a segment is missing, every later step stays undefined |
| I18n.Translate | client/src/hooks/useI18n.ts:20-29 | `t(key)` returns the value found along the dotted path in the current language exactly when that value is truthy, and otherwise the key |
| I18n.MissingSegmentFallsBack | client/src/hooks/useI18n.ts:20-29 | a key whose walk fails at any depth translates to the key itself |
| I18n.TranslatePath | client/src/hooks/useI18n.ts:20-29 | for a path of dot-free segments, a non-empty string or an object found there comes back as is, and nothing or "" gives the dotted key |
| I18n.InitialLanguage | client/src/hooks/useI18n.ts:7-12 | the start language is the stored one when there is a window and it is a non-empty string, else "en" |
| I18n.Direction | client/src/hooks/useI18n.ts:17 | the document direction is "rtl" exactly for "fa", else "ltr" |
| I18n.ApplyLanguage | client/src/hooks/useI18n.ts:14-18 | the effect stores the language, sets `lang` to it, and sets the direction from it |
| Text.DecimalRoundTrip | client/src/components/CompetitionCard.tsx:28 | the digits `String(n)` writes for a non-negative whole number read back as n |
| Text.SplitJoin | client/src/hooks/useI18n.ts:21 | splitting a joined list of separator-free pieces gives the pieces back |
| Numbers.ParseInteger | client/src/components/WithdrawModal.tsx:22 | both `parseFloat` and `Number` read back what `String(i)` writes for an integer |
| Numbers.ParseFloatIgnoresTrailing | client/src/components/WithdrawModal.tsx:22 | a written integer followed by text that starts with no digit, point, exponent mark or white space (and, after a lone "0", no radix letter) is read by `parseFloat` as the integer, while `Number` gives NaN |
| Csv.MapRows | client/src/components/ExportTournaments.tsx:22-29 | the body has one row per record, the i-th row built from the i-th record |
| Csv.Document | client/src/components/ExportTournaments.tsx:30-32 | the document opens with the first row's line, and a single row is the whole document |
| Csv.DocumentLines | client/src/components/ExportTournaments.tsx:30-32 | with no newline in any field, the document splits back into one line per row, in order |
| Csv.ParseDocument | client/src/components/ExportTournaments.tsx:30-32 | with no comma or newline in any field, reading the document back gives exactly the rows |
| ExportTournaments.NumberOrDash | client/src/components/ExportTournaments.tsx:26-27 | a number cell is "-" exactly when the value is missing or 0, and otherwise the number's decimal text |
| ExportTournaments.TextOrDash | client/src/components/ExportTournaments.tsx:28 | the rank cell is "-" when missing or empty, else the rank |
| ExportTournaments.Row | client/src/components/ExportTournaments.tsx:22-29 | a tournament gives six cells in header order: id, title and status verbatim, then the participants and prize cells as `NumberOrDash` writes them (`String(n)`, or "-" when falsy) and the rank or "-" |
| ExportTournaments.HeaderLine | client/src/components/ExportTournaments.tsx:21 | the first line is exactly "ID,Title,Status,Participants,Prize,Rank" |
| ExportTournaments.ExportCsv | client/src/components/ExportTournaments.tsx:20-32 | the CSV text always opens with the header line, and is exactly that line for an empty list |
| ExportTournaments.ExportLines | client/src/components/ExportTournaments.tsx:20-32 | with no newline in a cell, the file has one line more than there are tournaments: the header, then each tournament's line in input order |
| ExportTournaments.ExportParses | client/src/components/ExportTournaments.tsx:20-32 | with no separator in a cell, reading the file back gives the header and each tournament's six cells |
| ExportTournaments.CommaInTitleAddsField | client/src/components/ExportTournaments.tsx:22-31 | cells are not quoted, so a title holding a comma reads back as seven fields |
| TransactionExport.Row | client/src/components/TransactionExport.tsx:21 | a transaction gives five cells in header order, with the type and status as their string values and the amount as its decimal text |
| TransactionExport.NamesDistinct | client/src/components/TransactionExport.tsx:6-9 | the type and status cells determine the enum values they came from |
| TransactionExport.AmountReadsBack | client/src/components/TransactionExport.tsx:21 | the amount cell reads back as the amount with either parser |
| TransactionExport.ZeroAmountWritten | client/src/components/TransactionExport.tsx:21 | a zero amount is written as "0" |
| TransactionExport.HeaderLine | client/src/components/TransactionExport.tsx:20 | the first line is exactly "ID,Type,Amount,Date,Status" |
| TransactionExport.ExportCsv | client/src/components/TransactionExport.tsx:19-24 | the CSV text always opens with the header line, and is exactly that line for an empty list |
| TransactionExport.ExportLines | client/src/components/TransactionExport.tsx:19-24 | with no newline in an id or date, the file has the header line and then one line per transaction, in order |
| TransactionExport.CellsReadBack | client/src/components/TransactionExport.tsx:21 | each row's cells give back the transaction's id, date and amount |
| TransactionExport.ExportParses | client/src/components/TransactionExport.tsx:19-24 | with no separator in an id or date, reading the file back recovers the header and each transaction's id, date and amount |
| TransactionExport.CommaInDateAddsField | client/src/components/TransactionExport.tsx:19-24 | cells are not quoted, so a date holding a comma pushes the status into a sixth field |
| TransactionFilter.Set | client/src/components/TransactionFilter.tsx:20 | the spread update changes the named field and none of the other three |
| TransactionFilter.PayloadOf | client/src/components/TransactionFilter.tsx:23-27 | the payload holds each of the four keys exactly when its field is non-empty: type and status verbatim, the amounts parsed, with no min ≤ max check |
| TransactionFilter.Change | client/src/components/TransactionFilter.tsx:19-30 | a change sets one field, keeps the others, and emits the payload of the new fields |
| TransactionFilter.HasActive | client/src/components/TransactionFilter.tsx:32 | the badge is off exactly when all four fields are empty |
| TransactionFilter.HasActiveIff | client/src/components/TransactionFilter.tsx:32 | the active badge shows exactly when some field is non-empty, which is exactly when the payload is not empty |
| TransactionFilter.Clear | client/src/components/TransactionFilter.tsx:100-103 | clearing empties every field, emits the empty payload, and turns the badge off |
| TransactionFilter.NoRangeCheck | client/src/components/TransactionFilter.tsx:26-27 | a minimum and maximum are sent as typed, whichever is larger |
| TransactionFilter.UnreadableAmountSentAsNaN | client/src/components/TransactionFilter.tsx:26-27 | a non-empty amount that does not start a number is still sent, as NaN |
| CompetitionFilters.MarketNamesDistinct | client/src/components/CompetitionFilters.tsx:88 | the two market labels are different strings |
| CompetitionFilters.Merge | client/src/components/CompetitionFilters.tsx:31 | every field the partial holds overwrites the record's, and every other field keeps its value |
| CompetitionFilters.MergeNeutral | client/src/components/CompetitionFilters.tsx:31 | an empty partial changes nothing, and merging the same partial twice equals merging it once |
| CompetitionFilters.MergeCompose | client/src/components/CompetitionFilters.tsx:31 | two merges in a row equal one merge of the combined partial, the later one winning |
| CompetitionFilters.HandleChange | client/src/components/CompetitionFilters.tsx:30-34 | the emitted record is the new state, which is the merge |
| CompetitionFilters.Remove | client/src/components/CompetitionFilters.tsx:95 | filtering a market out removes every occurrence of it and keeps every other entry as often as before; a list without the market comes back unchanged |
| CompetitionFilters.RemoveAppend | client/src/components/CompetitionFilters.tsx:95 | the filter distributes over concatenation, so the entries it keeps stay in their original order |
| CompetitionFilters.Toggle | client/src/components/CompetitionFilters.tsx:94-96 | a click flips the market's membership and leaves other markets' membership alone; an absent market is appended at the end |
| CompetitionFilters.RemoveKeepsNoDuplicates | client/src/components/CompetitionFilters.tsx:95 | removal keeps a duplicate-free list duplicate-free |
| CompetitionFilters.ToggleKeepsNoDuplicates | client/src/components/CompetitionFilters.tsx:94-96 | toggling keeps a duplicate-free list duplicate-free |
| CompetitionFilters.ToggleTwice | client/src/components/CompetitionFilters.tsx:94-96 | selecting an unselected market and clicking it again restores the list |
| CompetitionFilters.PartialOf | client/src/components/CompetitionFilters.tsx:54-97 | no handler's partial holds the minimum fee |
| CompetitionFilters.StepChangesOneField | client/src/components/CompetitionFilters.tsx:54-97 | each handler changes its own field only: max fee and min prize through `Number`, the sort key, or the toggled market list |
| CompetitionFilters.MinFeeNeverChanges | client/src/components/CompetitionFilters.tsx:54-97 | the minimum fee keeps its value through any sequence of events |
| CompetitionFilters.RunKeepsMarketsWellFormed | client/src/components/CompetitionFilters.tsx:88-98 | the selected markets stay distinct button labels through any sequence of events |
| CompetitionFilters.ReachableFilters | client/src/components/CompetitionFilters.tsx:22-28 | from the initial record the minimum fee stays 0 and the market list stays well formed |
| CompetitionFilters.MaxFeeInputEdges | client/src/components/CompetitionFilters.tsx:54 | an emptied max-fee box gives 0, and text that is not a number gives NaN |
| WithdrawModal.IsValid | client/src/components/WithdrawModal.tsx:30 | a valid form has a non-empty amount and the 2FA box checked, and the balance is positive |
| WithdrawModal.Submit | client/src/components/WithdrawModal.tsx:21-30 | submit sends the parsed amount exactly when `isValid` holds (0 < amount ≤ balance and 2FA checked) and then resets the form; otherwise nothing changes |
| WithdrawModal.Disabled | client/src/components/WithdrawModal.tsx:87 | loading always disables the button, and an enabled button always leads to a sent withdrawal |
| WithdrawModal.ButtonMatchesSubmit | client/src/components/WithdrawModal.tsx:84-88 | an enabled button always sends; when not loading, a disabled one would do nothing |
| WithdrawModal.UnreadableAmountInvalid | client/src/components/WithdrawModal.tsx:22-23 | an empty amount, or one not starting a number, is never valid and never sent |
| WithdrawModal.FullBalanceAllowed | client/src/components/WithdrawModal.tsx:23 | withdrawing exactly the balance is valid and sends the balance |
| WithdrawModal.OverBalanceOrUncheckedRefused | client/src/components/WithdrawModal.tsx:23 | more than the balance, or an unchecked 2FA box, is refused |
| WithdrawModal.TrailingTextAccepted | client/src/components/WithdrawModal.tsx:22-24 | an amount followed by text starting with no digit, point, exponent mark or white space is sent as the amount, because `parseFloat` reads a prefix |
| WithdrawModal.SubmittedFormInvalid | client/src/components/WithdrawModal.tsx:25-30 | after a withdrawal the form is not valid until it is filled in again |
| DepositModal.Submit | client/src/components/DepositModal.tsx:22-27 | submit sends the parsed amount exactly when the amount is non-empty and parses above 0, then empties it and keeps the method; otherwise nothing changes |
| DepositModal.Disabled | client/src/components/DepositModal.tsx:91 | loading always disables the button, and a button disabled without loading means submit does nothing |
| DepositModal.PickPreset | client/src/components/DepositModal.tsx:63 | a preset sets the amount to the preset's decimal text (`toString`), which parses back as the preset, and keeps the method |
| DepositModal.SelectMethod | client/src/components/DepositModal.tsx:76 | the method select changes the method only |
| DepositModal.PresetsSubmit | client/src/components/DepositModal.tsx:15-27 | every preset passes the guard, sends its own value, and leaves the amount empty |
| DepositModal.ZeroEnabledButInert | client/src/components/DepositModal.tsx:91 | "0" enables the button, yet clicking it sends nothing and changes nothing |
| DepositModal.DisabledImpliesInert | client/src/components/DepositModal.tsx:91 | when the button is disabled for an empty amount, submit does nothing |
| DepositModal.SubmittedFormDisabled | client/src/components/DepositModal.tsx:25 | after a deposit the button is disabled until a new amount is entered |
| Wallet.Deposit | client/src/components/Wallet.tsx:41 | a deposit adds exactly 50 |
| Wallet.Withdraw | client/src/components/Wallet.tsx:48 | a withdrawal subtracts 50 from 50 up and clamps at 0 below, never going negative |
| Wallet.RunNonNegative | client/src/components/Wallet.tsx:41-48 | from a non-negative balance no sequence of presses makes it negative |
| Wallet.RunBounded | client/src/components/Wallet.tsx:41-48 | the balance never exceeds the start plus 50 per deposit pressed |
| Wallet.DepositThenWithdraw | client/src/components/Wallet.tsx:41-48 | a withdrawal undoes a deposit exactly when the balance was non-negative |
| Wallet.WithdrawThenDeposit | client/src/components/Wallet.tsx:41-48 | a deposit undoes a withdrawal exactly when the balance was at least 50 |
| Wallet.Press | client/src/components/Wallet.tsx:17-48 | a press moves the balance and leaves the transaction list as it was |
| Wallet.RunStateIsRun | client/src/components/Wallet.tsx:17-48 | any presses move the balance as the balance rules say and never change the list |
| Wallet.InitialInvariant | client/src/components/Wallet.tsx:16-21 | from the initial state the balance stays non-negative and the list stays the three seeded transactions |
| Wallet.SignPrefix | client/src/components/Wallet.tsx:75 | the sign is "+" exactly for a deposit and "-" exactly for a withdrawal |
| PersianNumbers.PersianTable | client/src/lib/persianNumbers.ts:33-34 | the k-th Persian digit is U+06F0 + k and the k-th ASCII digit is k |
| PersianNumbers.AsciiOf | client/src/lib/persianNumbers.ts:32-36 | looking a Persian digit up in the table gives the ASCII digit of the same value |
| PersianNumbers.ToAsciiDigits | client/src/lib/persianNumbers.ts:32-36 | the replacement keeps the length and every other character, and turns each Persian digit into the ASCII digit of the same value |
| PersianNumbers.ToAsciiIdempotent | client/src/lib/persianNumbers.ts:32-36 | replacing twice is replacing once |
| PersianNumbers.ToAsciiUndoesPersian | client/src/lib/persianNumbers.ts:32-36 | a digit string written in Persian digits comes back exactly |
| PersianNumbers.PersianDecimalReadsBack | client/src/lib/persianNumbers.ts:30-37 | a number written in Persian digits, once replaced, reads back as the number |
| PersianNumbers.FormatCurrency | client/src/lib/persianNumbers.ts:30-39 | the formatted amount is returned unchanged unless the language is "fa", in which case each Persian digit becomes the ASCII digit of the same value and nothing else changes |
| PersianNumbers.FormatNumberForLanguage | client/src/lib/persianNumbers.ts:1-13 | a string comes back as is, and a number as its `String` form, whose ASCII digits read back as the number |
| PersianNumbers.FormatNumberSameInBothLanguages | client/src/lib/persianNumbers.ts:7-12 | "fa" and "en" give the same text |
| PersianNumbers.FormatPercent | client/src/lib/persianNumbers.ts:42-47 | the text is the number's `String` form, which reads back as the number, followed by "%" |
| PersianNumbers.FormatPercentSameInBothLanguages | client/src/lib/persianNumbers.ts:42-47 | the language does not change the percent text |
| Theme.InitialTheme | client/src/hooks/useTheme.ts:8-11 | the start theme is the stored value when it is a non-empty string, else "light" |
| Theme.Apply | client/src/hooks/useTheme.ts:13-24 | the effect sets the attribute and the stored value to the theme. A valid-token theme is a class exactly when it is not light. A non-light theme that is no valid token makes the add throw, leaving the class list with only the theme classes removed. No other theme class remains, and every unrelated class is untouched |
| Theme.SpacedThemeNotAdded | client/src/hooks/useTheme.ts:20-23 | a theme containing a space makes `classList.add` throw and never becomes a class |
| Theme.AtMostOneThemeClass | client/src/hooks/useTheme.ts:18-23 | after the effect the only one of the three theme classes present is the current theme's, and none for light |
| Theme.ApplyIdempotent | client/src/hooks/useTheme.ts:13-24 | re-running the effect for the same theme changes nothing |
| Theme.ApplyOverrides | client/src/hooks/useTheme.ts:13-24 | after a switch between known themes the root is as if only the last had been applied |
| Theme.UnknownThemeClassLingers | client/src/hooks/useTheme.ts:19-23 | an unknown stored theme that is a valid class token is added as a class and stays when the theme later changes |
| Theme.StartUp | client/src/hooks/useTheme.ts:8-24 | at start the stored value is written back, and with nothing stored the root gets "light" and no theme class |
| ThemeToggle.IsDark | client/src/components/MinimalThemeToggle.tsx:6 | a dark theme is one of the two non-light theme classes |
| ThemeToggle.Toggle | client/src/components/MinimalThemeToggle.tsx:6-10 | the button sets "light" or "dark" only, and flips whether the theme is dark |
| ThemeToggle.ToggleTwice | client/src/components/MinimalThemeToggle.tsx:6-10 | two presses restore light and dark; legendary comes back as dark |
| ThemeToggle.ToggleOnRoot | client/src/components/MinimalThemeToggle.tsx:6-10 | after a press and the effect, the root's theme classes are {"dark"} when the theme was not dark and none otherwise, never "legendary" |

## Left out

- Rendering is not modelled: JSX, icons, CSS classes, layout, and the `showFilters` panel toggles.
- Timers and the clock are not modelled (`setInterval`, `Date.now`, `matchMedia`). `now` and the reduced-motion flag are parameters, and a run of ticks is a sequence of instants.
- The countdown effect re-runs when `startAt` or `onExpired` changes. That is not modelled. Calling `onExpired` is the `firesExpired` flag.
- Date parsing and locale formatting are not modelled: `new Date(...)`, `getHours`, and the `toLocaleString` month and time boxes on the card. The locale formatting inside `formatCurrency` arrives as a parameter.
- Floating-point arithmetic is not modelled. `Math.round` on a fractional amount, `toFixed(2)`, exponent output for very large numbers, and rounding of reals are out. Card amounts are whole numbers, and dialog and wallet amounts are exact reals.
- Numbers.ScanNumber: reads only sign, digits and an optional fraction. Leading whitespace, exponents, "Infinity" and hexadecimal are not recognised, and `Number`'s trimming of trailing white space is not modelled. The lemmas about trailing text (Numbers.ParseFloatIgnoresTrailing, WithdrawModal.TrailingTextAccepted) therefore exclude an exponent mark, white space and a radix letter after "0", where JavaScript reads on.
- The `type="number"` inputs' sanitisation is not modelled: the browser hands the amount and fee handlers only "" or valid floating-point text. TransactionFilter.UnreadableAmountSentAsNaN, WithdrawModal.UnreadableAmountInvalid and WithdrawModal.TrailingTextAccepted describe what the handlers do with text they are given, including text a user cannot type into those inputs.
- I18n.Translate: a lookup step finds only the table's own keys. Indexing into a string leaf always gives undefined, so JavaScript property access on strings ("length", "0") is not modelled. Properties an object inherits ("constructor", "toString", "hasOwnProperty") are not modelled either: the code finds a truthy function for such a segment, while the model falls back to the key (I18n.MissingSegmentFallsBack).
- Downloads are not modelled: the Blob, URL and anchor, the JSON export (`JSON.stringify`) and the timestamped file name.
- Storage is not modelled: `localStorage` reads and writes and `document.documentElement` writes. These appear as values passed in and records returned.
- The theme type allows only three values, but a stored string is never checked. The model therefore takes any string as a theme.
- TransactionFilter.Change: keys other than the four fields are not modelled, since the inputs only pass those four.
- Theme.Apply: the class list is a set, so repeated class names and their order are not modelled. When `classList.add` throws for a theme that is no valid token, the model stops at the state reached before the add. What React then does with the exception thrown from the effect is not modelled.
- CompetitionCard.PrizeText: the code tests the unrounded pool and formats the rounded one. A pool between 0 and 0.5 therefore shows "0 <currency>" rather than "No prize". Pools are whole numbers in the model, so that case cannot arise here.
- PersianNumbers.FormatNumberForLanguage: a number is a whole number here. Fractional numbers ("12.5"), NaN, infinities and exponent forms of `String(n)` are not modelled.
- PersianNumbers.FormatPercent: the value is a whole number here. `formatPercent(12.5)` giving "12.5%" and other non-integral values are not modelled.
- Every number the exporters write is a whole number. NaN and fractional participants, prizes and amounts are not modelled.
- The competition types' unused fields are not modelled: prize breakdown, capacity and market type of the card.

=== FILE: common.dfy ===
/** Small shared vocabulary: JavaScript's "absent" values as an Option. */
module Common {

  /** `undefined`/`null` versus a present value. */
  datatype Option<+T> = None | Some(value: T) {

    /** The value when present, else `default` (JavaScript's `??` and destructuring defaults). */
    function GetOr(default: T): T {
      match this
      case Some(v) => v
      case None => default
    }
  }

  /** JavaScript truthiness of an optional string: present and non-empty. */
  predicate TruthyText(s: Option<string>) {
    s.Some? && s.value != ""
  }
}

=== FILE: competition_card.dfy ===
/** The arithmetic behind a competition card: two-digit padding, money with
    thousands separators, the countdown to the start split into days, hours,
    minutes and seconds, the duration badge, the Join-button rule and the
    "No prize" / "-" guards. Instants are integer milliseconds and `now` is a
    parameter. */
module CompetitionCard {
  import opened Common
  import opened Text

  /** The props the card computes from; dates are already instants. */
  datatype Competition = Competition(
    title: string,
    entryFee: int,
    entryFeeCurrency: Option<string>,
    participants: int,
    startsMs: int,
    endsMs: int,
    prizePool: int,
    prizeCurrency: Option<string>)

  /** Currency used when the prop is absent. */
  const DefaultCurrency := "USDT"

  // ---------------------------------------------------------------- pad2

  /** `pad2(n)` on the non-negative parts the countdown produces. */
  function Pad2(n: nat): (r: string)
    ensures |r| >= 2
    ensures n <= 9 ==> r == ['0', DigitChar(n)]
    ensures n >= 10 ==> r == Decimal(n)
  {
    PadStart(Decimal(n), 2, '0')
  }

  /** The padded string still denotes `n`: the added zero changes nothing. */
  lemma Pad2Value(n: nat)
    ensures AllDigits(Pad2(n))
    ensures DecimalValue(Pad2(n)) == n
  {
    var r := Pad2(n);
    if n <= 9 {
      assert r[..|r| - 1] == ['0'];
      assert ['0'][..0] == [];
      assert DecimalValue(['0']) == 0;
    } else {
      DecimalRoundTrip(n);
    }
  }

  // ---------------------------------------------------------------- formatMoney

  /** The replacement of `\B(?=(\d{3})+(?!\d))` by "," on a run of digits: a comma
      goes between two digits exactly when a positive multiple of three digits
      follows the gap. */
  function InsertCommas(ds: string): (r: string)
    ensures |r| >= |ds|
    ensures |ds| > 0 ==> r[0] == ds[0]
  {
    if ds == [] then []
    else [ds[0]] + Gap(|ds|) + InsertCommas(ds[1..])
  }

  /** What follows the first of `n` digits: a comma when a positive multiple of
      three digits comes after it. */
  function Gap(n: nat): string
  {
    if n > 1 && (n - 1) % 3 == 0 then "," else ""
  }

  /** Thousands grouping read from the right: a leading group of one to three
      digits, then any number of groups "," followed by exactly three digits. */
  predicate Grouped(s: string)
    decreases |s|
  {
    if |s| <= 3 then 1 <= |s| && AllDigits(s)
    else |s| >= 5 && s[|s| - 4] == ',' && AllDigits(s[|s| - 3..]) && Grouped(s[..|s| - 4])
  }

  lemma {:induction false} InsertCommasShort(ds: string)
    requires |ds| <= 3
    ensures InsertCommas(ds) == ds
    decreases |ds|
  {
    if ds != [] {
      InsertCommasShort(ds[1..]);
      assert ds == [ds[0]] + ds[1..];
    }
  }

  /** One unfolding of `InsertCommas` on `ds` and on `ds + g`, where the comma
      after the first digit is the same for both. */
  lemma InsertCommasStep(ds: string, g: string)
    requires |ds| >= 2 && |g| == 3
    ensures InsertCommas(ds + g) == [ds[0]] + Gap(|ds|) + InsertCommas(ds[1..] + g)
  {
    var s := ds + g;
    assert s[0] == ds[0] && s[1..] == ds[1..] + g;
    GapShift(|ds|);
  }

  /** Three more digits after the first keep the gap. */
  lemma GapShift(n: nat)
    requires n >= 2
    ensures Gap(n + 3) == Gap(n)
  {
    var m: nat := n - 1;
    assert (m + 3) % 3 == m % 3;
  }

  lemma InsertCommasOneDigit(ds: string, g: string)
    requires |ds| == 1 && |g| == 3
    ensures InsertCommas(ds + g) == InsertCommas(ds) + "," + g
  {
    var s := ds + g;
    assert s[0] == ds[0] && s[1..] == g;
    InsertCommasShort(g);
    InsertCommasShort(ds);
  }

  /** Three more digits on the right add exactly one group on the right. */
  lemma {:induction false} InsertCommasAppendGroup(ds: string, g: string)
    requires |ds| >= 1 && |g| == 3
    ensures InsertCommas(ds + g) == InsertCommas(ds) + "," + g
    decreases |ds|
  {
    if |ds| == 1 {
      InsertCommasOneDigit(ds, g);
    } else {
      var head, tail := [ds[0]] + Gap(|ds|), ds[1..];
      InsertCommasStep(ds, g);
      InsertCommasAppendGroup(tail, g);
      var x := InsertCommas(tail);
      assert InsertCommas(ds) == head + x;
      ConcatAssoc(head, x + ",", g);
      ConcatAssoc(head, x, ",");
    }
  }

  lemma GroupedAppend(q: string, g: string)
    requires Grouped(q) && |g| == 3 && AllDigits(g)
    ensures Grouped(q + "," + g)
  {
    var r := q + "," + g;
    assert |q| >= 1;
    assert r[..|r| - 4] == q;
    assert r[|r| - 3..] == g;
  }

  lemma StripGroup(q: string, g: string)
    requires AllDigits(g)
    ensures Strip(q + "," + g, ',') == Strip(q, ',') + g
  {
    var comma: string := [','];
    assert Strip(q + comma, ',') == Strip(q, ',') by {
      assert Strip(comma, ',') == [] by {
        assert comma[1..] == [];
      }
      StripAppend(q, comma, ',');
    }
    assert Strip(g, ',') == g by {
      StripAbsent(g, ',');
    }
    StripAppend(q + comma, g, ',');
  }

  /** Grouping a digit string gives a well-grouped string that is the digits
      again once the commas are deleted. */
  lemma {:induction false} InsertCommasGrouped(ds: string)
    requires AllDigits(ds) && |ds| >= 1
    ensures Grouped(InsertCommas(ds))
    ensures Strip(InsertCommas(ds), ',') == ds
    decreases |ds|
  {
    if |ds| <= 3 {
      InsertCommasShort(ds);
      StripAbsent(ds, ',');
    } else {
      var p, g := ds[..|ds| - 3], ds[|ds| - 3..];
      assert ds == p + g;
      InsertCommasAppendGroup(p, g);
      InsertCommasGrouped(p);
      GroupedAppend(InsertCommas(p), g);
      StripGroup(InsertCommas(p), g);
    }
  }

  lemma IndexOfBeforeMark(a: string, c: char, b: string)
    ensures IndexOf(a + [c] + b, c) == IndexOf(a, c)
  {
    var s := a + [c] + b;
    var i := IndexOf(a, c);
    assert s[i] == c;
    assert forall j | 0 <= j < i :: s[j] == a[j];
  }

  /** A grouped number holds only digits and commas. */
  lemma {:induction false} GroupedChars(s: string)
    requires Grouped(s)
    ensures forall i | 0 <= i < |s| :: IsDigit(s[i]) || s[i] == ','
    decreases |s|
  {
    if |s| > 3 {
      var p, g := s[..|s| - 4], s[|s| - 3..];
      GroupedChars(p);
      assert s == p + [','] + g;
    }
  }

  /** Its leading group, up to the first comma, is one to three digits. */
  lemma {:induction false} GroupedLeading(s: string)
    requires Grouped(s)
    ensures 1 <= IndexOf(s, ',') <= 3
    ensures AllDigits(s[..IndexOf(s, ',')])
    decreases |s|
  {
    if |s| <= 3 {
      assert ',' !in s;
      IndexOfAbsent(s, ',');
      assert s[..|s|] == s;
    } else {
      var p, g := s[..|s| - 4], s[|s| - 3..];
      GroupedLeading(p);
      assert s == p + [','] + g;
      IndexOfBeforeMark(p, ',', g);
      var k := IndexOf(p, ',');
      assert IndexOf(s, ',') == k;
      assert s[..k] == p[..k];
    }
  }

  /** Every comma is followed by exactly three digits and then a comma or the end. */
  lemma {:induction false} GroupedCommas(s: string)
    requires Grouped(s)
    ensures forall i | 0 <= i < |s| && s[i] == ',' ::
      i + 3 < |s| && AllDigits(s[i + 1..i + 4]) && (i + 4 == |s| || s[i + 4] == ',')
    decreases |s|
  {
    if |s| > 3 {
      var p, g := s[..|s| - 4], s[|s| - 3..];
      GroupedCommas(p);
      assert s == p + [','] + g;
      forall i | 0 <= i < |s| && s[i] == ','
        ensures i + 3 < |s| && AllDigits(s[i + 1..i + 4]) && (i + 4 == |s| || s[i + 4] == ',')
      {
        if i < |p| {
          assert p[i] == ',';
          assert s[i + 1..i + 4] == p[i + 1..i + 4];
          if i + 4 < |p| {
            assert s[i + 4] == p[i + 4];
          } else {
            assert s[i + 4] == ',';
          }
        } else {
          assert i == |p|;
          assert s[i + 1..i + 4] == g;
        }
      }
    }
  }

  /** `Math.round(value).toString()` with the separators; the sign stays in
      front, and the replacement only ever inserts commas. */
  function GroupedNumber(value: int): (parts: string)
    ensures |parts| >= 1 && (value < 0 <==> parts[0] == '-')
    ensures Strip(parts, ',') == IntToDecimal(value)
  {
    var magnitude: nat := if value < 0 then -value else value;
    var g := InsertCommas(Decimal(magnitude));
    InsertCommasGrouped(Decimal(magnitude));
    if value < 0 then
      assert Strip("-", ',') == "-" by {
        assert "-"[1..] == [];
      }
      StripAppend("-", g, ',');
      "-" + g
    else g
  }

  /** `formatMoney(value, currency)` for a whole amount: the grouped amount,
      then a space and the currency only when the currency is non-empty. */
  function FormatMoney(value: int, currency: Option<string>): (r: string)
    ensures GroupedNumber(value) <= r
    ensures TruthyText(currency) ==> r[|GroupedNumber(value)|..] == " " + currency.value
    ensures !TruthyText(currency) ==> r == GroupedNumber(value)
  {
    var parts := GroupedNumber(value);
    if TruthyText(currency) then
      ConcatAssoc(parts, " ", currency.value);
      parts + " " + currency.value
    else parts
  }

  /** `Math.round(value).toString()` after the replacement: a "-" exactly for a
      negative amount, then a well-grouped number whose digits, commas deleted,
      are the decimal digits of the amount; no space anywhere. */
  lemma GroupedNumberShape(value: int)
    ensures var parts := GroupedNumber(value);
            var digits := if value < 0 then parts[1..] else parts;
            && 1 <= |parts|
            && (value < 0 <==> parts[0] == '-')
            && Grouped(digits)
            && Strip(digits, ',') == Decimal(if value < 0 then -value else value)
            && ' ' !in parts
  {
    var magnitude: nat := if value < 0 then -value else value;
    var g := InsertCommas(Decimal(magnitude));
    InsertCommasGrouped(Decimal(magnitude));
    GroupedChars(g);
    var parts := GroupedNumber(value);
    assert value < 0 ==> parts[1..] == g;
  }

  /** Up to the first space `formatMoney` writes the grouped amount; what follows
      is " " and the currency exactly when the currency is present and non-empty. */
  lemma FormatMoneyShape(value: int, currency: Option<string>)
    ensures var r := FormatMoney(value, currency);
            var k := IndexOf(r, ' ');
            && r[..k] == GroupedNumber(value)
            && r[k..] == (if TruthyText(currency) then " " + currency.value else "")
  {
    var parts := GroupedNumber(value);
    assert ' ' !in parts by {
      GroupedNumberShape(value);
    }
    if TruthyText(currency) {
      SpaceThen(parts, currency.value);
    } else {
      IndexOfAbsent(parts, ' ');
    }
  }

  /** Text without a space, then a space and more: the first space separates the two. */
  lemma SpaceThen(a: string, b: string)
    requires ' ' !in a
    ensures var r := a + " " + b;
            var k := IndexOf(r, ' ');
            r[..k] == a && r[k..] == " " + b
  {
    var r := a + " " + b;
    IndexOfFirst(a, ' ', b);
    ConcatAssoc(a, " ", b);
    assert r[..|a|] == a;
  }

  // ---------------------------------------------------------------- diffParts

  /** Result of `diffParts(ms)`. */
  datatype Parts = Parts(days: nat, hours: nat, minutes: nat, seconds: nat, totalSeconds: nat)

  lemma SplitSeconds(t: nat)
    ensures t % 60 < 60 && (t % 3600) / 60 < 60 && (t % 86400) / 3600 < 24
    ensures (t / 86400) * 86400 + ((t % 86400) / 3600) * 3600 + ((t % 3600) / 60) * 60 + t % 60 == t
  {
    var d, r := t / 86400, t % 86400;
    assert t == d * 86400 + r;
    var h, r2 := r / 3600, r % 3600;
    assert r == h * 3600 + r2;
    assert t == (d * 24 + h) * 3600 + r2;
    assert t % 3600 == r2;
    var m, s := r2 / 60, r2 % 60;
    assert r2 == m * 60 + s;
    assert t == ((d * 24 + h) * 60 + m) * 60 + s;
    assert t % 60 == s;
  }

  /** `diffParts(ms)`: whole seconds of `max(0, ms)`, split into days, hours < 24,
      minutes < 60 and seconds < 60 that recombine to the total. */
  function DiffParts(ms: int): (p: Parts)
    ensures ms < 1000 ==> p == Parts(0, 0, 0, 0, 0)
    ensures p.totalSeconds * 1000 <= (if ms < 0 then 0 else ms) < p.totalSeconds * 1000 + 1000
    ensures p.hours < 24 && p.minutes < 60 && p.seconds < 60
    ensures p.days * 86400 + p.hours * 3600 + p.minutes * 60 + p.seconds == p.totalSeconds
  {
    var clamped := if ms < 0 then 0 else ms;
    var totalSeconds := clamped / 1000;
    SplitSeconds(totalSeconds);
    Parts(
      totalSeconds / (3600 * 24),
      (totalSeconds % (3600 * 24)) / 3600,
      (totalSeconds % 3600) / 60,
      totalSeconds % 60,
      totalSeconds)
  }

  /** The four countdown boxes for `diffParts(startsMs - now)`: `pad2` of each
      part followed by its unit letter. */
  function CountdownUnits(p: Parts): seq<string>
  {
    [Pad2(p.days) + "d", Pad2(p.hours) + "h", Pad2(p.minutes) + "m", Pad2(p.seconds) + "s"]
  }

  /** The number a countdown box shows, its unit letter dropped. */
  function BoxValue(u: string): nat
    requires |u| >= 1 && AllDigits(u[..|u| - 1])
  {
    DecimalValue(u[..|u| - 1])
  }

  /** A countdown box shows `n`: at least two digits that read back as `n`,
      then the unit letter. */
  predicate Shows(u: string, unit: char, n: nat) {
    && |u| >= 3 && AllDigits(u[..|u| - 1]) && u[|u| - 1] == unit
    && BoxValue(u) == n
  }

  lemma BoxReadsBack(n: nat, unit: char)
    ensures Shows(Pad2(n) + [unit], unit, n)
  {
    Pad2Value(n);
    var u := Pad2(n) + [unit];
    assert u[..|u| - 1] == Pad2(n);
  }

  /** The four boxes show the days, hours, minutes and seconds, in that order. */
  lemma CountdownReadsBack(p: Parts)
    ensures var u := CountdownUnits(p);
            && |u| == 4
            && Shows(u[0], 'd', p.days) && Shows(u[1], 'h', p.hours)
            && Shows(u[2], 'm', p.minutes) && Shows(u[3], 's', p.seconds)
  {
    BoxReadsBack(p.days, 'd');
    BoxReadsBack(p.hours, 'h');
    BoxReadsBack(p.minutes, 'm');
    BoxReadsBack(p.seconds, 's');
  }

  // ---------------------------------------------------------------- badge and guards

  /** Duration badge: the value text, the unit letter, and the round shape. */
  datatype Badge = Badge(value: string, unit: string, isCircle: bool)

  /** `Math.ceil(a / b)` for a non-negative `a`. */
  function CeilDiv(a: nat, b: nat): (q: nat)
    requires b > 0
    ensures q * b >= a
    ensures q > 0 ==> (q - 1) * b < a
  {
    (a + b - 1) / b
  }

  /** `durationHours`: the competition's length in hours, rounded up, never negative. */
  function DurationHours(c: Competition): (h: nat)
    ensures h * 3600000 >= c.endsMs - c.startsMs
    ensures h > 0 ==> (h - 1) * 3600000 < c.endsMs - c.startsMs
  {
    CeilDiv(if c.endsMs > c.startsMs then c.endsMs - c.startsMs else 0, 3600 * 1000)
  }

  /** The badge: round with unit "H" and the hours under a day, otherwise
      square with unit "D" and the hours divided by 24 and rounded up. */
  function DurationBadge(c: Competition): (b: Badge)
    ensures AllDigits(b.value)
    ensures b.isCircle <==> DurationHours(c) < 24
    ensures b.value == Decimal(if b.isCircle then DurationHours(c) else CeilDiv(DurationHours(c), 24))
    ensures b.isCircle ==> b.unit == "H" && DecimalValue(b.value) == DurationHours(c)
    ensures !b.isCircle ==>
      (b.unit == "D" && DecimalValue(b.value) * 24 >= DurationHours(c) > (DecimalValue(b.value) - 1) * 24)
  {
    var hours := DurationHours(c);
    var isCircle := hours < 24;
    var shown := if isCircle then hours else CeilDiv(hours, 24);
    DecimalRoundTrip(shown);
    Badge(Decimal(shown), if isCircle then "H" else "D", isCircle)
  }

  /** `isEnded`, which disables Join: it depends on the start instant only. */
  function JoinDisabled(c: Competition, now: int): (disabled: bool)
    ensures disabled <==> now >= c.startsMs
  {
    c.startsMs - now <= 0
  }

  /** The "Total prize" text. */
  function PrizeText(c: Competition): (r: string)
    ensures r == "No prize" <==> c.prizePool <= 0
    ensures c.prizePool > 0 ==> r == FormatMoney(c.prizePool, Some(c.prizeCurrency.GetOr(DefaultCurrency)))
  {
    if c.prizePool > 0 then
      var r := FormatMoney(c.prizePool, Some(c.prizeCurrency.GetOr(DefaultCurrency)));
      assert r[0] == GroupedNumber(c.prizePool)[0] == Decimal(c.prizePool)[0];
      assert r != "No prize" by {
        assert IsDigit(r[0]) && !IsDigit("No prize"[0]);
      }
      FormatMoney(c.prizePool, Some(c.prizeCurrency.GetOr(DefaultCurrency)))
    else "No prize"
  }

  /** The "Traders" text: the count when positive, otherwise "-". */
  function TradersText(c: Competition): (r: string)
    ensures r == "-" <==> c.participants <= 0
    ensures c.participants > 0 ==> r == IntToDecimal(c.participants)
    ensures c.participants > 0 ==> AllDigits(r) && DecimalValue(r) == c.participants
  {
    if c.participants > 0 then
      DecimalRoundTrip(c.participants);
      IntToDecimal(c.participants)
    else "-"
  }

  /** The "Entry fee" text: always the formatted amount, zero included. */
  function EntryFeeText(c: Competition): (r: string)
    ensures r[..IndexOf(r, ' ')] == GroupedNumber(c.entryFee)
    ensures c.entryFeeCurrency.None? ==> r[IndexOf(r, ' ')..] == " " + DefaultCurrency
    ensures TruthyText(c.entryFeeCurrency) ==> r[IndexOf(r, ' ')..] == " " + c.entryFeeCurrency.value
    ensures c.entryFeeCurrency == Some("") ==> r == GroupedNumber(c.entryFee)
  {
    var currency := Some(c.entryFeeCurrency.GetOr(DefaultCurrency));
    FormatMoneyShape(c.entryFee, currency);
    FormatMoney(c.entryFee, currency)
  }
}

=== FILE: competition_filters.dfy ===
/** The competition filter panel: a filter record whose every change is a
    shallow merge of a partial record, emitted as the new state, and the
    market buttons that toggle a market in or out of the selected list. */
module CompetitionFilters {
  import opened Common
  import opened Numbers

  datatype SortKey = Newest | Prize | Participants

  /** The filter record. Numeric fields come from `Number(input)` and so may be NaN. */
  datatype Filters = Filters(
    marketType: seq<string>,
    minFee: Parsed,
    maxFee: Parsed,
    minPrize: Parsed,
    sortBy: SortKey)

  const Initial := Filters([], Num(0.0), Num(1000.0), Num(0.0), Newest)

  /** The two market buttons, in the order shown. */
  datatype Market = Forex | Crypto

  /** A market's label, which is also the value stored in `marketType`. */
  function MarketName(m: Market): (name: string)
    ensures |name| >= 1
  {
    match m
    case Forex => "\U{0641}\U{0627}\U{0631}\U{06A9}\U{0633}"
    case Crypto => "\U{06A9}\U{0631}\U{06CC}\U{067E}\U{062A}\U{0648}"
  }

  lemma MarketNamesDistinct(a: Market, b: Market)
    ensures MarketName(a) == MarketName(b) <==> a == b
  {
    assert MarketName(Forex)[0] != MarketName(Crypto)[0];
  }

  /** A `Partial<Filters>`: an absent field is `None`. */
  datatype Partial = Partial(
    marketType: Option<seq<string>>,
    minFee: Option<Parsed>,
    maxFee: Option<Parsed>,
    minPrize: Option<Parsed>,
    sortBy: Option<SortKey>)

  const NoChange := Partial(None, None, None, None, None)

  /** `{ ...filters, ...partial }`: each field the partial holds overwrites the
      record's, every other field keeps its value. */
  function Merge(f: Filters, p: Partial): (r: Filters)
    ensures r.marketType == p.marketType.GetOr(f.marketType)
    ensures r.minFee == p.minFee.GetOr(f.minFee)
    ensures r.maxFee == p.maxFee.GetOr(f.maxFee)
    ensures r.minPrize == p.minPrize.GetOr(f.minPrize)
    ensures r.sortBy == p.sortBy.GetOr(f.sortBy)
  {
    Filters(
      p.marketType.GetOr(f.marketType),
      p.minFee.GetOr(f.minFee),
      p.maxFee.GetOr(f.maxFee),
      p.minPrize.GetOr(f.minPrize),
      p.sortBy.GetOr(f.sortBy))
  }

  /** Spreading two partials in a row: the later one wins where both hold a field. */
  function Then(p: Partial, q: Partial): Partial
  {
    Partial(
      if q.marketType.Some? then q.marketType else p.marketType,
      if q.minFee.Some? then q.minFee else p.minFee,
      if q.maxFee.Some? then q.maxFee else p.maxFee,
      if q.minPrize.Some? then q.minPrize else p.minPrize,
      if q.sortBy.Some? then q.sortBy else p.sortBy)
  }

  /** An empty partial changes nothing, and applying the same partial twice is
      applying it once. */
  lemma MergeNeutral(f: Filters, p: Partial)
    ensures Merge(f, NoChange) == f
    ensures Merge(Merge(f, p), p) == Merge(f, p)
  {
  }

  /** Two merges in a row are one merge of the combined partial. */
  lemma MergeCompose(f: Filters, p: Partial, q: Partial)
    ensures Merge(Merge(f, p), q) == Merge(f, Then(p, q))
  {
  }

  /** The new state and the record passed to `onFiltersChange`. */
  datatype Changed = Changed(state: Filters, emitted: Filters)

  /** `handleFilterChange(partial)`. */
  function HandleChange(f: Filters, p: Partial): (r: Changed)
    ensures r.emitted == r.state
    ensures r.state == Merge(f, p)
  {
    var updated := Merge(f, p);
    Changed(updated, updated)
  }

  /** The list with every occurrence of `m` filtered out, order kept. */
  function Remove(ms: seq<string>, m: string): (r: seq<string>)
    ensures multiset(r) == multiset(ms)[m := 0]
    ensures m !in r
    ensures forall x | x != m :: x in r <==> x in ms
    ensures m !in ms ==> r == ms
    decreases |ms|
  {
    if ms == [] then []
    else
      assert ms == [ms[0]] + ms[1..];
      var rest := Remove(ms[1..], m);
      if ms[0] == m then rest else [ms[0]] + rest
  }

  /** Removing from a concatenation removes from each part and keeps the parts
      in order: the filter never reorders what it keeps. */
  lemma {:induction false} RemoveAppend(a: seq<string>, b: seq<string>, m: string)
    ensures Remove(a + b, m) == Remove(a, m) + Remove(b, m)
    decreases |a|
  {
    if a == [] {
      assert a + b == b;
    } else {
      assert (a + b)[0] == a[0];
      assert (a + b)[1..] == a[1..] + b;
      RemoveAppend(a[1..], b, m);
    }
  }

  /** What the market button computes: drop the market if selected, else append it. */
  function Toggle(ms: seq<string>, m: string): (r: seq<string>)
    ensures m in r <==> m !in ms
    ensures forall x | x != m :: x in r <==> x in ms
    ensures m !in ms ==> r == ms + [m]
    ensures m in ms ==> multiset(r) == multiset(ms)[m := 0]
  {
    if m in ms then Remove(ms, m) else ms + [m]
  }

  predicate NoDuplicates(ms: seq<string>) {
    forall i, j | 0 <= i < j < |ms| :: ms[i] != ms[j]
  }

  lemma {:induction false} RemoveKeepsNoDuplicates(ms: seq<string>, m: string)
    requires NoDuplicates(ms)
    ensures NoDuplicates(Remove(ms, m))
    decreases |ms|
  {
    if ms != [] {
      var tail := ms[1..];
      assert NoDuplicates(tail) by {
        forall i, j | 0 <= i < j < |tail|
          ensures tail[i] != tail[j]
        {
          assert tail[i] == ms[i + 1] && tail[j] == ms[j + 1];
        }
      }
      RemoveKeepsNoDuplicates(tail, m);
      if ms[0] != m {
        assert ms[0] !in tail by {
          forall j | 0 <= j < |tail|
            ensures tail[j] != ms[0]
          {
            assert tail[j] == ms[j + 1];
          }
        }
        assert Remove(ms, m) == [ms[0]] + Remove(tail, m);
        ConsNoDuplicates(ms[0], Remove(tail, m));
      }
    }
  }

  /** A new element in front of a duplicate-free list keeps it duplicate-free. */
  lemma ConsNoDuplicates(x: string, rest: seq<string>)
    requires NoDuplicates(rest) && x !in rest
    ensures NoDuplicates([x] + rest)
  {
    var r := [x] + rest;
    forall i, j | 0 <= i < j < |r|
      ensures r[i] != r[j]
    {
      if i == 0 {
        assert r[j] == rest[j - 1];
      } else {
        assert r[i] == rest[i - 1] && r[j] == rest[j - 1];
      }
    }
  }

  /** Toggling a market never duplicates an entry. */
  lemma ToggleKeepsNoDuplicates(ms: seq<string>, m: string)
    requires NoDuplicates(ms)
    ensures NoDuplicates(Toggle(ms, m))
  {
    if m in ms {
      RemoveKeepsNoDuplicates(ms, m);
    } else {
      var r := ms + [m];
      forall i, j | 0 <= i < j < |r|
        ensures r[i] != r[j]
      {
        if j == |ms| {
          assert r[i] == ms[i];
        } else {
          assert r[i] == ms[i] && r[j] == ms[j];
        }
      }
    }
  }

  lemma {:induction false} RemoveAbsent(ms: seq<string>, m: string)
    requires m !in ms
    ensures Remove(ms, m) == ms
    decreases |ms|
  {
    if ms != [] {
      RemoveAbsent(ms[1..], m);
    }
  }

  lemma {:induction false} RemoveAppended(ms: seq<string>, m: string)
    ensures Remove(ms + [m], m) == Remove(ms, m)
    decreases |ms|
  {
    if ms == [] {
      assert [] + [m] == [m];
      assert [m][1..] == [];
    } else {
      assert (ms + [m])[1..] == ms[1..] + [m];
      RemoveAppended(ms[1..], m);
    }
  }

  /** Selecting an unselected market and clicking it again restores the list. */
  lemma ToggleTwice(ms: seq<string>, m: string)
    requires m !in ms
    ensures Toggle(Toggle(ms, m), m) == ms
  {
    assert m in ms + [m];
    RemoveAppended(ms, m);
    RemoveAbsent(ms, m);
  }

  /** A user action on the panel, with the raw input text where there is one. */
  datatype Event =
    | MaxFeeInput(text: string)
    | MinPrizeInput(text: string)
    | SortSelected(key: SortKey)
    | MarketClicked(market: Market)

  /** The partial record each handler passes to `handleFilterChange`. */
  function PartialOf(f: Filters, e: Event): (p: Partial)
    ensures p.minFee.None?
  {
    match e
    case MaxFeeInput(text) => NoChange.(maxFee := Some(ToNumber(text)))
    case MinPrizeInput(text) => NoChange.(minPrize := Some(ToNumber(text)))
    case SortSelected(key) => NoChange.(sortBy := Some(key))
    case MarketClicked(m) => NoChange.(marketType := Some(Toggle(f.marketType, MarketName(m))))
  }

  function Step(f: Filters, e: Event): Filters
  {
    HandleChange(f, PartialOf(f, e)).state
  }

  /** Each handler changes its own field and leaves the other four alone. */
  lemma StepChangesOneField(f: Filters, e: Event)
    ensures e.MaxFeeInput? ==> Step(f, e) == f.(maxFee := ToNumber(e.text))
    ensures e.MinPrizeInput? ==> Step(f, e) == f.(minPrize := ToNumber(e.text))
    ensures e.SortSelected? ==> Step(f, e) == f.(sortBy := e.key)
    ensures e.MarketClicked? ==> Step(f, e) == f.(marketType := Toggle(f.marketType, MarketName(e.market)))
  {
  }

  function Run(f: Filters, es: seq<Event>): Filters
    decreases |es|
  {
    if es == [] then f else Run(Step(f, es[0]), es[1..])
  }

  /** No handler sets the minimum fee: it keeps its value through any events. */
  lemma {:induction false} MinFeeNeverChanges(f: Filters, es: seq<Event>)
    ensures Run(f, es).minFee == f.minFee
    decreases |es|
  {
    if es != [] {
      MinFeeNeverChanges(Step(f, es[0]), es[1..]);
    }
  }

  /** The selected markets are always distinct button labels. */
  predicate MarketsWellFormed(ms: seq<string>) {
    NoDuplicates(ms) && forall i | 0 <= i < |ms| :: exists m: Market :: ms[i] == MarketName(m)
  }

  lemma {:induction false} RunKeepsMarketsWellFormed(f: Filters, es: seq<Event>)
    requires MarketsWellFormed(f.marketType)
    ensures MarketsWellFormed(Run(f, es).marketType)
    decreases |es|
  {
    if es != [] {
      var g := Step(f, es[0]);
      if es[0].MarketClicked? {
        var name := MarketName(es[0].market);
        ToggleKeepsNoDuplicates(f.marketType, name);
        var r := g.marketType;
        forall i | 0 <= i < |r|
          ensures exists m: Market :: r[i] == MarketName(m)
        {
          if r[i] != name {
            assert r == Toggle(f.marketType, name) && r[i] in r;
            assert r[i] in f.marketType;
            var k :| 0 <= k < |f.marketType| && f.marketType[k] == r[i];
          } else {
            assert r[i] == MarketName(es[0].market);
          }
        }
      }
      RunKeepsMarketsWellFormed(g, es[1..]);
    }
  }

  /** From the initial record, after any events: the minimum fee is still 0 and
      the market list holds each button label at most once. */
  lemma ReachableFilters(es: seq<Event>)
    ensures Run(Initial, es).minFee == Num(0.0)
    ensures MarketsWellFormed(Run(Initial, es).marketType)
  {
    MinFeeNeverChanges(Initial, es);
    RunKeepsMarketsWellFormed(Initial, es);
  }

  /** Clearing the maximum-fee box gives 0, not "no limit"; text that is not a
      number gives NaN. */
  lemma MaxFeeInputEdges(f: Filters, text: string)
    ensures Step(f, MaxFeeInput("")).maxFee == Num(0.0)
    ensures text != "" && ToNumber(text).NaN? ==> Step(f, MaxFeeInput(text)).maxFee == NaN
  {
  }
}

=== FILE: countdown_timer.dfy ===
/** The countdown shown before a competition starts: on every tick the time left
    is split into hours (no day rollover), minutes and seconds, or, once the
    start has been reached, the timer is marked expired for good; the render
    picks one of four texts. `now` and the reduced-motion preference are
    parameters. */
module CountdownTimer {
  import opened Text

  datatype Hms = Hms(hours: nat, minutes: nat, seconds: nat)

  /** Component state: the parts last shown and the expiry flag. */
  datatype Timer = Timer(shown: Hms, isExpired: bool)

  const Initial := Timer(Hms(0, 0, 0), false)

  /** The text shown once the competition has started ("started"). */
  const StartedText := "\U{0634}\U{0631}\U{0648}\U{0639} \U{0634}\U{062F}\U{0647}"

  /** Tick period: one minute when reduced motion is preferred, else one second. */
  function RefreshInterval(prefersReducedMotion: bool): (ms: nat)
    ensures ms > 0 && ms % 1000 == 0
    ensures prefersReducedMotion <==> ms == 60 * 1000
    ensures !prefersReducedMotion <==> ms == 1000
  {
    if prefersReducedMotion then 60000 else 1000
  }

  /** `Math.max(0, startTime - now)`. */
  function Remaining(startMs: int, now: int): (r: nat)
    ensures r >= startMs - now
    ensures r == 0 || r == startMs - now
  {
    if startMs - now > 0 then startMs - now else 0
  }

  /** The milliseconds a set of parts stands for. */
  function Millis(p: Hms): nat
  {
    p.hours * 3600000 + p.minutes * 60000 + p.seconds * 1000
  }

  /** Division by a positive `d` undoes `k * d + x` for a remainder `x < d`. */
  lemma MulAddDivMod(k: nat, d: nat, x: nat)
    requires x < d
    ensures (k * d + x) / d == k && (k * d + x) % d == x
  {
    var q, rr := (k * d + x) / d, (k * d + x) % d;
    assert k * d + x == q * d + rr;
    if k > q {
      assert (q + 1) * d == q * d + d;
      MulMono(q + 1, k, d);
      assert false;
    } else if k < q {
      assert (k + 1) * d == k * d + d;
      MulMono(k + 1, q, d);
      assert false;
    }
  }

  lemma MulMono(a: nat, b: nat, d: nat)
    requires a <= b
    ensures a * d <= b * d
  {
  }

  lemma SplitMillis(r: nat)
    ensures (r % 3600000) / 60000 < 60 && (r % 60000) / 1000 < 60
    ensures var m := (r / 3600000) * 3600000 + ((r % 3600000) / 60000) * 60000 + ((r % 60000) / 1000) * 1000;
            m <= r < m + 1000
  {
    var h, r1 := r / 3600000, r % 3600000;
    var m, r2 := r1 / 60000, r1 % 60000;
    assert m < 60 by {
      assert r1 == m * 60000 + r2;
    }
    assert r == (h * 60 + m) * 60000 + r2 by {
      assert r == h * 3600000 + r1;
      assert r1 == m * 60000 + r2;
      assert h * 3600000 == (h * 60) * 60000;
    }
    MulAddDivMod(h * 60 + m, 60000, r2);
    var s := r2 / 1000;
    assert r2 == s * 1000 + r2 % 1000;
  }

  /** The hours, minutes and seconds of `calculateTime`. */
  function Decompose(remaining: nat): (p: Hms)
    ensures p.minutes < 60 && p.seconds < 60
    ensures Millis(p) <= remaining < Millis(p) + 1000
  {
    SplitMillis(remaining);
    Hms(remaining / 3600000, (remaining % 3600000) / 60000, (remaining % 60000) / 1000)
  }

  lemma SecondsUnique(h: nat, m: nat, s: nat, h': nat, m': nat, s': nat)
    requires m < 60 && s < 60 && m' < 60 && s' < 60
    requires (h * 60 + m) * 60 + s == (h' * 60 + m') * 60 + s'
    ensures h == h' && m == m' && s == s'
  {
    var a, b := h * 60 + m, h' * 60 + m';
    assert (a * 60 + s) / 60 == a && (a * 60 + s) % 60 == s;
    assert (b * 60 + s') / 60 == b && (b * 60 + s') % 60 == s';
    assert (h * 60 + m) / 60 == h && (h * 60 + m) % 60 == m;
    assert (h' * 60 + m') / 60 == h' && (h' * 60 + m') % 60 == m';
  }

  /** Any parts with minutes and seconds below 60 that cover `remaining` to the
      second are the ones `Decompose` computes. */
  lemma DecomposeUnique(remaining: nat, q: Hms)
    requires q.minutes < 60 && q.seconds < 60
    requires Millis(q) <= remaining < Millis(q) + 1000
    ensures q == Decompose(remaining)
  {
    var p := Decompose(remaining);
    var x := (p.hours * 60 + p.minutes) * 60 + p.seconds;
    var y := (q.hours * 60 + q.minutes) * 60 + q.seconds;
    assert Millis(p) == x * 1000 && Millis(q) == y * 1000;
    assert remaining / 1000 == x;
    assert remaining / 1000 == y;
    SecondsUnique(p.hours, p.minutes, p.seconds, q.hours, q.minutes, q.seconds);
  }

  /** A tick's outcome: the new state and whether `onExpired` is called. */
  datatype Tick = Tick(timer: Timer, firesExpired: bool)

  /** One run of `calculateTime` at instant `now`. */
  function OnTick(t: Timer, startMs: int, now: int): (r: Tick)
    ensures r.firesExpired <==> now >= startMs
    ensures r.timer.isExpired <==> t.isExpired || now >= startMs
    ensures r.firesExpired ==> r.timer.shown == t.shown
    ensures !r.firesExpired ==>
      && r.timer.shown.minutes < 60 && r.timer.shown.seconds < 60
      && Millis(r.timer.shown) <= startMs - now < Millis(r.timer.shown) + 1000
  {
    var remaining := Remaining(startMs, now);
    if remaining == 0 then Tick(t.(isExpired := true), true)
    else Tick(t.(shown := Decompose(remaining)), false)
  }

  /** The state after ticks at the instants `nows`, in order. */
  function Run(t: Timer, startMs: int, nows: seq<int>): Timer
    decreases |nows|
  {
    if nows == [] then t else Run(OnTick(t, startMs, nows[0]).timer, startMs, nows[1..])
  }

  /** Expiry is one-way: after any ticks the timer is expired exactly when it
      already was or some tick came at or after the start. */
  lemma {:induction false} ExpiryMonotone(t: Timer, startMs: int, nows: seq<int>)
    ensures Run(t, startMs, nows).isExpired
        <==> t.isExpired || exists i | 0 <= i < |nows| :: nows[i] >= startMs
    decreases |nows|
  {
    if nows != [] {
      var t' := OnTick(t, startMs, nows[0]).timer;
      ExpiryMonotone(t', startMs, nows[1..]);
      if exists i | 0 <= i < |nows| :: nows[i] >= startMs {
        var i :| 0 <= i < |nows| && nows[i] >= startMs;
        if i > 0 {
          assert nows[1..][i - 1] >= startMs;
        }
      }
      assert forall i | 0 <= i < |nows[1..]| :: nows[1..][i] == nows[i + 1];
    }
  }

  /** The text the component renders. */
  function Display(t: Timer): (r: string)
    ensures t.isExpired ==> r == StartedText
    ensures !t.isExpired ==> |r| >= 2 && r[|r| - 1] == (if t.shown.hours == 0 then 's' else 'm')
  {
    if t.isExpired then StartedText
    else if t.shown.hours == 0 && t.shown.minutes == 0 then Decimal(t.shown.seconds) + "s"
    else if t.shown.hours == 0 then Decimal(t.shown.minutes) + "m " + Decimal(t.shown.seconds) + "s"
    else Decimal(t.shown.hours) + "h " + Decimal(t.shown.minutes) + "m"
  }

  /** The started text appears exactly when the timer is expired. */
  lemma DisplayStartedIffExpired(t: Timer)
    ensures Display(t) == StartedText <==> t.isExpired
  {
    if !t.isExpired {
      var d := Display(t);
      var lead := if t.shown.hours > 0 then t.shown.hours
                  else if t.shown.minutes > 0 then t.shown.minutes else t.shown.seconds;
      assert d[0] == Decimal(lead)[0];
      assert IsDigit(d[0]) && !IsDigit(StartedText[0]);
    }
  }

  /** Seconds are shown exactly when less than an hour is left. */
  lemma DisplaySecondsIffUnderAnHour(t: Timer)
    requires !t.isExpired
    ensures var d := Display(t); |d| >= 2 && (d[|d| - 1] == 's' <==> t.shown.hours == 0)
  {
  }

  /** Shape of an unexpired display: a number, a unit mark, and the rest. */
  lemma DisplayLead(t: Timer) returns (first: nat, mark: char, rest: string)
    requires !t.isExpired
    ensures Display(t) == Decimal(first) + [mark] + rest
    ensures mark == 'h' <==> t.shown.hours > 0
    ensures mark == 'h' ==> first == t.shown.hours && rest == " " + Decimal(t.shown.minutes) + "m"
    ensures mark == 'm' <==> t.shown.hours == 0 && t.shown.minutes > 0
    ensures mark == 'm' ==> first == t.shown.minutes && rest == " " + Decimal(t.shown.seconds) + "s"
    ensures mark == 's' <==> t.shown.hours == 0 && t.shown.minutes == 0
    ensures mark == 's' ==> first == t.shown.seconds && rest == ""
  {
    var p := t.shown;
    if p.hours == 0 && p.minutes == 0 {
      first, mark, rest := p.seconds, 's', "";
    } else if p.hours == 0 {
      first, mark, rest := p.minutes, 'm', " " + Decimal(p.seconds) + "s";
    } else {
      first, mark, rest := p.hours, 'h', " " + Decimal(p.minutes) + "m";
    }
  }

  /** The display is unambiguous: two unexpired timers that render the same
      text agree on hours and minutes, and on seconds when those are shown. */
  lemma DisplayDeterminesShown(a: Timer, b: Timer)
    requires !a.isExpired && !b.isExpired
    requires Display(a) == Display(b)
    ensures a.shown.hours == b.shown.hours && a.shown.minutes == b.shown.minutes
    ensures a.shown.hours == 0 ==> a.shown.seconds == b.shown.seconds
  {
    var x, c, t := DisplayLead(a);
    var y, d, u := DisplayLead(b);
    DecimalThenMark(x, y, c, d, t, u);
    if c == 'h' {
      SpacedPartDetermines(a.shown.minutes, b.shown.minutes, 'm');
    } else if c == 'm' {
      SpacedPartDetermines(a.shown.seconds, b.shown.seconds, 's');
    }
  }

  /** The " <n><unit>" tail of a display determines n. */
  lemma SpacedPartDetermines(m: nat, n: nat, unit: char)
    requires !IsDigit(unit)
    requires " " + Decimal(m) + [unit] == " " + Decimal(n) + [unit]
    ensures m == n
  {
    ConcatAssoc(" ", Decimal(m), [unit]);
    ConcatAssoc(" ", Decimal(n), [unit]);
    assert (" " + (Decimal(m) + [unit]))[1..] == Decimal(m) + [unit];
    assert (" " + (Decimal(n) + [unit]))[1..] == Decimal(n) + [unit];
    assert Decimal(m) + [unit] + [] == Decimal(m) + [unit];
    assert Decimal(n) + [unit] + [] == Decimal(n) + [unit];
    DecimalThenMark(m, n, unit, unit, [], []);
  }
}

=== FILE: csv.dfy ===
/** The comma-separated text both exporters build: each row joined with ",",
    the rows joined with "\n", with no quoting or escaping of any field.
    `Parse` is the reader this writer is meant for; the lemmas say when it
    gives the rows back. */
module Csv {
  import opened Text

  /** `row.join(",")`. */
  function Line(fields: seq<string>): string
  {
    Join(fields, ',')
  }

  function Lines(rows: seq<seq<string>>): (ls: seq<string>)
    ensures |ls| == |rows|
    ensures forall i | 0 <= i < |rows| :: ls[i] == Line(rows[i])
  {
    seq(|rows|, i requires 0 <= i < |rows| => Line(rows[i]))
  }

  /** One row per record, in input order (`data.map(...)`). */
  function MapRows<T>(records: seq<T>, row: T -> seq<string>): (rows: seq<seq<string>>)
    ensures |rows| == |records|
    ensures forall i | 0 <= i < |records| :: rows[i] == row(records[i])
  {
    seq(|records|, i requires 0 <= i < |records| => row(records[i]))
  }

  /** `rows.map(row => row.join(",")).join("\n")`: the first row's line
      always opens the document, and a single row is the whole of it. */
  function Document(rows: seq<seq<string>>): (doc: string)
    ensures |rows| >= 1 ==> Line(rows[0]) <= doc
    ensures |rows| == 1 ==> doc == Line(rows[0])
  {
    if |rows| >= 1 then
      JoinPrefix(Lines(rows), '\n');
      Join(Lines(rows), '\n')
    else
      Join(Lines(rows), '\n')
  }

  /** Split into lines at "\n", then into fields at ",". */
  function Parse(doc: string): (rows: seq<seq<string>>)
    ensures |rows| >= 1
  {
    var ls := Split(doc, '\n');
    seq(|ls|, i requires 0 <= i < |ls| => Split(ls[i], ','))
  }

  /** A field that needs no escaping: it holds neither separator. */
  predicate Plain(field: string) {
    ',' !in field && '\n' !in field
  }

  /** A written integer never needs escaping. */
  lemma IntPlain(i: int)
    ensures Plain(IntToDecimal(i))
  {
    var s := IntToDecimal(i);
    if i < 0 {
      assert forall k | 1 <= k < |s| :: s[k] == s[1..][k - 1];
    }
    assert forall k | 0 <= k < |s| :: s[k] == '-' || IsDigit(s[k]);
  }

  predicate NoNewline(rows: seq<seq<string>>) {
    forall i, j | 0 <= i < |rows| && 0 <= j < |rows[i]| :: '\n' !in rows[i][j]
  }

  predicate AllPlain(rows: seq<seq<string>>) {
    forall i, j | 0 <= i < |rows| && 0 <= j < |rows[i]| :: Plain(rows[i][j])
  }

  /** When no field holds a newline, the document has one line per row, in order. */
  lemma DocumentLines(rows: seq<seq<string>>)
    requires |rows| >= 1 && NoNewline(rows)
    ensures Split(Document(rows), '\n') == Lines(rows)
  {
    forall i | 0 <= i < |rows|
      ensures '\n' !in Line(rows[i])
    {
      JoinExcludes(rows[i], ',', '\n');
    }
    SplitJoin(Lines(rows), '\n');
  }

  /** The same for a header row followed by the data rows: the header's line
      comes first, then the data rows' lines in order. */
  lemma HeaderThenLines(header: seq<string>, rows: seq<seq<string>>)
    requires NoNewline([header] + rows)
    ensures var ls := Split(Document([header] + rows), '\n');
            && |ls| == |rows| + 1
            && ls[0] == Line(header)
            && forall i | 0 <= i < |rows| :: ls[i + 1] == Line(rows[i])
  {
    var all := [header] + rows;
    DocumentLines(all);
    forall i | 0 <= i < |rows|
      ensures Lines(all)[i + 1] == Line(rows[i])
    {
      assert all[i + 1] == rows[i];
    }
  }

  /** When every row has a field and no field holds a separator, reading the
      document back gives exactly the rows. */
  lemma ParseDocument(rows: seq<seq<string>>)
    requires |rows| >= 1
    requires forall i | 0 <= i < |rows| :: |rows[i]| >= 1
    requires AllPlain(rows)
    ensures Parse(Document(rows)) == rows
  {
    DocumentLines(rows);
    forall i | 0 <= i < |rows|
      ensures Split(Line(rows[i]), ',') == rows[i]
    {
      SplitJoin(rows[i], ',');
    }
  }
}

=== FILE: deposit_modal.dfy ===
/** The deposit dialog: an amount typed as text or set from a preset button,
    and a payment method. A deposit is sent only for a non-empty amount that
    `parseFloat` reads as positive; the button itself checks only emptiness. */
module DepositModal {
  import opened Common
  import opened Text
  import opened Numbers

  datatype Form = Form(amount: string, payment: string)

  const Initial := Form("", "card")

  /** `PRESETS`. */
  const Presets: seq<nat> := [20, 50, 100, 500]

  /** The new form and the amount passed to `onSubmit`, if it was called. */
  datatype Submitted = Submitted(form: Form, sent: Option<real>)

  /** `handleSubmit`: sends the parsed amount and empties the amount box, the
      method untouched; otherwise nothing changes. */
  function Submit(f: Form): (r: Submitted)
    ensures r.sent.Some? <==> f.amount != "" && Above(ParseFloat(f.amount), 0.0)
    ensures r.sent.Some? ==> ParseFloat(f.amount) == Num(r.sent.value) && r.sent.value > 0.0
    ensures r.sent.Some? ==> r.form == Form("", f.payment)
    ensures r.sent.None? ==> r.form == f
  {
    if f.amount != "" && Above(ParseFloat(f.amount), 0.0) then
      Submitted(f.(amount := ""), Some(ParseFloat(f.amount).value))
    else
      Submitted(f, None)
  }

  /** A preset button: `setAmount(preset.toString())`. */
  function PickPreset(f: Form, i: nat): (r: Form)
    requires i < |Presets|
    ensures r.payment == f.payment
    ensures r.amount == Decimal(Presets[i])
    ensures ParseFloat(r.amount) == Num(Presets[i] as real)
  {
    ParseDecimal(Presets[i]);
    f.(amount := Decimal(Presets[i]))
  }

  /** The method select: only the method changes. */
  function SelectMethod(f: Form, m: string): (r: Form)
    ensures r.amount == f.amount && r.payment == m
  {
    f.(payment := m)
  }

  /** `disabled={!amount || loading}`. */
  predicate Disabled(f: Form, loading: bool)
    ensures loading ==> Disabled(f, loading)
    ensures Disabled(f, false) ==> Submit(f) == Submitted(f, None)
  {
    f.amount == "" || loading
  }

  /** Every preset, whatever the method, goes through and sends its own value. */
  lemma PresetsSubmit(f: Form, i: nat)
    requires i < |Presets|
    ensures Submit(PickPreset(f, i)).sent == Some(Presets[i] as real)
    ensures Submit(PickPreset(f, i)).form == Form("", f.payment)
  {
  }

  /** The button is enabled for "0", but clicking it does nothing. */
  lemma ZeroEnabledButInert(m: string)
    ensures !Disabled(Form("0", m), false)
    ensures Submit(Form("0", m)) == Submitted(Form("0", m), None)
  {
    ParseDecimal(0);
  }

  /** A disabled button guards an inert submit; an enabled one may still be inert. */
  lemma DisabledImpliesInert(f: Form)
    requires Disabled(f, false)
    ensures Submit(f) == Submitted(f, None)
  {
  }

  /** After a deposit the button is disabled until a new amount is entered. */
  lemma SubmittedFormDisabled(f: Form)
    requires Submit(f).sent.Some?
    ensures Disabled(Submit(f).form, false)
  {
  }
}

=== FILE: export_tournaments.dfy ===
/** The CSV export of the tournament list: a fixed header line, then one line
    per tournament in input order, with a falsy participants, prize or rank
    written as "-". Nothing is quoted, so a comma inside a field adds a column. */
module ExportTournaments {
  import opened Common
  import opened Text
  import opened Csv

  datatype Tournament = Tournament(
    id: string,
    title: string,
    status: string,
    participants: Option<int>,
    prize: Option<int>,
    rank: Option<string>)

  const Header: seq<string> := ["ID", "Title", "Status", "Participants", "Prize", "Rank"]

  /** `n || "-"` for an optional number: absent and 0 are falsy. */
  function NumberOrDash(n: Option<int>): (r: string)
    ensures r == "-" <==> n.None? || n.value == 0
    ensures n.Some? && n.value != 0 ==> r == IntToDecimal(n.value)
    ensures Plain(r)
  {
    if n.Some? && n.value != 0 then
      IntPlain(n.value);
      IntToDecimal(n.value)
    else "-"
  }

  /** `s || "-"` for an optional string: absent and "" are falsy. */
  function TextOrDash(s: Option<string>): (r: string)
    ensures !TruthyText(s) ==> r == "-"
    ensures TruthyText(s) ==> r == s.value
  {
    if TruthyText(s) then s.value else "-"
  }

  /** The six cells of a tournament's line. */
  function Row(t: Tournament): (r: seq<string>)
    ensures |r| == |Header|
    ensures r[0] == t.id && r[1] == t.title && r[2] == t.status
    ensures r[3] == NumberOrDash(t.participants) && r[4] == NumberOrDash(t.prize)
    ensures r[3] == "-" <==> t.participants.None? || t.participants.value == 0
    ensures r[4] == "-" <==> t.prize.None? || t.prize.value == 0
    ensures !TruthyText(t.rank) ==> r[5] == "-"
    ensures TruthyText(t.rank) ==> r[5] == t.rank.value
  {
    [t.id, t.title, t.status, NumberOrDash(t.participants), NumberOrDash(t.prize), TextOrDash(t.rank)]
  }

  /** The CSV text `handleExport("csv")` puts in the file. */
  function ExportCsv(ts: seq<Tournament>): (csv: string)
    ensures FirstLine <= csv
    ensures ts == [] ==> csv == FirstLine
  {
    HeaderLine();
    assert ([Header] + MapRows(ts, Row))[0] == Header;
    Document([Header] + MapRows(ts, Row))
  }

  /** The free-text cells hold no character the format uses. */
  predicate PlainTournament(t: Tournament) {
    && Plain(t.id) && Plain(t.title) && Plain(t.status)
    && (t.rank.Some? ==> Plain(t.rank.value))
  }

  predicate NoNewlineTournament(t: Tournament) {
    && '\n' !in t.id && '\n' !in t.title && '\n' !in t.status
    && (t.rank.Some? ==> '\n' !in t.rank.value)
  }

  /** The file's first line, "ID,Title,Status,Participants,Prize,Rank", written
      cell by cell. */
  const FirstLine := "ID," + ("Title," + ("Status," + ("Participants," + ("Prize," + "Rank"))))

  /** The header's cells are joined as the file's first line. */
  lemma HeaderLine()
    ensures Line(Header) == FirstLine
  {
    JoinCons("Prize", ["Rank"], ',', "Rank", "Prize,");
    JoinCons("Participants", ["Prize", "Rank"], ',', "Prize," + "Rank", "Participants,");
    JoinCons("Status", ["Participants", "Prize", "Rank"], ',', "Participants," + ("Prize," + "Rank"), "Status,");
    JoinCons("Title", ["Status", "Participants", "Prize", "Rank"], ',',
      "Status," + ("Participants," + ("Prize," + "Rank")), "Title,");
    JoinCons("ID", ["Title", "Status", "Participants", "Prize", "Rank"], ',',
      "Title," + ("Status," + ("Participants," + ("Prize," + "Rank"))), "ID,");
  }

  lemma RowCells(t: Tournament, plain: bool)
    requires plain ==> PlainTournament(t)
    requires NoNewlineTournament(t)
    ensures forall j | 0 <= j < |Row(t)| :: '\n' !in Row(t)[j]
    ensures plain ==> forall j | 0 <= j < |Row(t)| :: Plain(Row(t)[j])
  {
    assert Plain("-");
  }

  lemma AllRowCells(ts: seq<Tournament>, plain: bool)
    requires forall i | 0 <= i < |ts| :: NoNewlineTournament(ts[i])
    requires plain ==> forall i | 0 <= i < |ts| :: PlainTournament(ts[i])
    ensures NoNewline([Header] + MapRows(ts, Row))
    ensures plain ==> AllPlain([Header] + MapRows(ts, Row))
  {
    var rows := [Header] + MapRows(ts, Row);
    forall i | 0 <= i < |rows|
      ensures forall j | 0 <= j < |rows[i]| :: '\n' !in rows[i][j]
      ensures plain ==> forall j | 0 <= j < |rows[i]| :: Plain(rows[i][j])
    {
      if i > 0 {
        RowCells(ts[i - 1], plain);
      }
    }
  }

  /** With no newline in any cell, the export has n + 1 lines: the header line
      exactly, then each tournament's cells joined by commas, in input order. */
  lemma ExportLines(ts: seq<Tournament>)
    requires forall i | 0 <= i < |ts| :: NoNewlineTournament(ts[i])
    ensures var ls := Split(ExportCsv(ts), '\n');
            && |ls| == |ts| + 1
            && ls[0] == FirstLine
            && forall i | 0 <= i < |ts| :: ls[i + 1] == Line(Row(ts[i]))
  {
    var rows := MapRows(ts, Row);
    AllRowCells(ts, false);
    HeaderThenLines(Header, rows);
    HeaderLine();
    forall i | 0 <= i < |ts|
      ensures Line(rows[i]) == Line(Row(ts[i]))
    {
    }
  }

  /** With no separator in any cell, reading the export back gives the header
      and then exactly the six cells of each tournament, in input order. */
  lemma ExportParses(ts: seq<Tournament>)
    requires forall i | 0 <= i < |ts| :: PlainTournament(ts[i])
    ensures Parse(ExportCsv(ts)) == [Header] + MapRows(ts, Row)
    ensures forall i | 0 <= i < |ts| + 1 :: |Parse(ExportCsv(ts))[i]| == 6
  {
    var rows := [Header] + MapRows(ts, Row);
    AllRowCells(ts, true);
    ParseDocument(rows);
  }

  /** Without quoting, a title "x,y" becomes two cells: the line reads back as
      seven fields, the title's halves among them. */
  lemma CommaInTitleAddsField(t: Tournament, x: string, y: string)
    requires t.title == x + "," + y
    requires Plain(x) && Plain(y) && Plain(t.id) && Plain(t.status)
    requires t.rank.Some? ==> Plain(t.rank.value)
    ensures var fields := Split(Line(Row(t)), ',');
            |fields| == 7 && fields[1] == x && fields[2] == y
  {
    var r := Row(t);
    var pre, post := r[..1], r[2..];
    assert r == pre + [x + [','] + y] + post;
    JoinSplitCell(pre, x, y, post, ',');
    var cut := pre + [x, y] + post;
    assert Plain("-");
    assert forall k | 0 <= k < |cut| :: ',' !in cut[k];
    SplitJoin(cut, ',');
  }
}

=== FILE: i18n.dfy ===
/** The translation hook: the dotted-key lookup `t` with its fall-back to the
    key, the default language and the document direction. The translation
    table is a parameter: a tree of nested objects with string leaves. */
module I18n {
  import opened Common
  import opened Text

  /** A value in the translation table: a string or a nested object. */
  datatype Entry = Leaf(text: string) | Node(children: map<string, Entry>)

  /** JavaScript truthiness of a found value: objects always, strings when non-empty. */
  predicate Truthy(e: Entry) {
    e.Node? || e.text != ""
  }

  /** One step `value?.[k]`: nothing stays nothing, and only objects have children. */
  function Child(v: Option<Entry>, k: string): (r: Option<Entry>)
    ensures r.Some? ==> v.Some? && v.value.Node? && k in v.value.children
    ensures v.Some? && v.value.Node? && k in v.value.children ==> r == Some(v.value.children[k])
  {
    match v
    case Some(Node(m)) => if k in m then Some(m[k]) else None
    case _ => None
  }

  /** The loop over the key's segments, first segment first. */
  function Walk(v: Option<Entry>, keys: seq<string>): (r: Option<Entry>)
    ensures keys == [] ==> r == v
    ensures v.None? ==> r.None?
    ensures r.Some? && keys != [] ==> v.Some? && v.value.Node? && keys[0] in v.value.children
    decreases |keys|
  {
    if keys == [] then v else Walk(Child(v, keys[0]), keys[1..])
  }

  /** Walking a path is walking its first part, then the rest: one level per segment, in order. */
  lemma {:induction false} WalkAppend(v: Option<Entry>, a: seq<string>, b: seq<string>)
    ensures Walk(v, a + b) == Walk(Walk(v, a), b)
    decreases |a|
  {
    if a != [] {
      assert (a + b)[1..] == a[1..] + b;
      WalkAppend(Child(v, a[0]), a[1..], b);
    } else {
      assert a + b == b;
    }
  }

  /** Once a segment is missing, nothing further can be found. */
  lemma {:induction false} WalkFromNothing(keys: seq<string>)
    ensures Walk(None, keys) == None
    decreases |keys|
  {
    if keys != [] {
      WalkFromNothing(keys[1..]);
    }
  }

  /** `t(key)` for the table `translations` and the current `language`. The result
      is an `Entry` because a key naming an inner object returns that object. */
  function Translate(translations: Entry, language: string, key: string): (r: Entry)
    ensures r == Leaf(key) || Walk(Child(Some(translations), language), Split(key, '.')) == Some(r)
    ensures Truthy(r) || r == Leaf(key)
    ensures var found := Walk(Child(Some(translations), language), Split(key, '.'));
            found.Some? && Truthy(found.value) ==> r == found.value
  {
    var found := Walk(Child(Some(translations), language), Split(key, '.'));
    if found.Some? && Truthy(found.value) then found.value else Leaf(key)
  }

  /** A key whose walk stops at a missing segment, at any depth, falls back to the key. */
  lemma MissingSegmentFallsBack(translations: Entry, language: string, key: string, depth: nat)
    requires depth <= |Split(key, '.')|
    requires Walk(Child(Some(translations), language), Split(key, '.')[..depth]) == None
    ensures Translate(translations, language, key) == Leaf(key)
  {
    var keys := Split(key, '.');
    assert keys == keys[..depth] + keys[depth..];
    WalkAppend(Child(Some(translations), language), keys[..depth], keys[depth..]);
    WalkFromNothing(keys[depth..]);
  }

  /** Looking up the dotted join of a path finds what the table holds there:
      a non-empty string or an object comes back as is; an empty string, or
      nothing, gives the key itself. */
  lemma TranslatePath(translations: Entry, language: string, path: seq<string>)
    requires |path| >= 1
    requires forall k | 0 <= k < |path| :: '.' !in path[k]
    ensures var found := Walk(Child(Some(translations), language), path);
            var r := Translate(translations, language, Join(path, '.'));
            && (forall s :: found == Some(Leaf(s)) && s != "" ==> r == Leaf(s))
            && (forall m :: found == Some(Node(m)) ==> r == Node(m))
            && (found == None || found == Some(Leaf("")) ==> r == Leaf(Join(path, '.')))
  {
    SplitJoin(path, '.');
  }

  /** The language at start: the stored one when it is a non-empty string, else "en". */
  function InitialLanguage(hasWindow: bool, stored: Option<string>): (language: string)
    ensures language != ""
    ensures hasWindow && TruthyText(stored) ==> language == stored.value
    ensures !(hasWindow && TruthyText(stored)) ==> language == "en"
  {
    if hasWindow && TruthyText(stored) then stored.value else "en"
  }

  /** `document.documentElement.dir` for a language. */
  function Direction(language: string): (dir: string)
    ensures dir == "rtl" <==> language == "fa"
    ensures dir == "ltr" <==> language != "fa"
  {
    if language == "fa" then "rtl" else "ltr"
  }

  /** What the effect writes: the stored language, the `lang` attribute and the direction. */
  datatype Document = Document(stored: string, lang: string, dir: string)

  function ApplyLanguage(language: string): (d: Document)
    ensures d.stored == language && d.lang == language
    ensures d.dir == "rtl" <==> language == "fa"
  {
    Document(language, language, Direction(language))
  }
}

=== FILE: ledger.dfy ===
/** The wallet transaction record shared by the wallet view and the transaction export. */
module Ledger {

  datatype TxType = Deposit | Withdraw

  datatype TxStatus = Completed | Pending

  /** A transaction; the amount is a whole number of currency units. */
  datatype Transaction = Transaction(id: string, kind: TxType, amount: int, date: string, status: TxStatus)

  /** The string value of the `type` field. */
  function TypeName(k: TxType): string
  {
    match k
    case Deposit => "deposit"
    case Withdraw => "withdraw"
  }

  /** The string value of the `status` field. */
  function StatusName(s: TxStatus): string
  {
    match s
    case Completed => "completed"
    case Pending => "pending"
  }
}

=== FILE: numbers.dfy ===
/** The two string-to-number conversions the forms use, restricted to plain
    decimal notation: `parseFloat` reads the longest numeric prefix and ignores
    the rest, `Number` must consume the whole string and maps "" to 0. */
module Numbers {
  import opened Text

  /** A JavaScript number as the forms see it: NaN or a finite value. */
  datatype Parsed = NaN | Num(value: real)

  /** `p > x`; every comparison with NaN is false. */
  predicate Above(p: Parsed, x: real) {
    p.Num? && p.value > x
  }

  /** `p <= x`; every comparison with NaN is false. */
  predicate AtMost(p: Parsed, x: real) {
    p.Num? && p.value <= x
  }

  /** Length of the run of digits at the start of `s`. */
  function DigitRun(s: string): (n: nat)
    ensures n <= |s|
    ensures AllDigits(s[..n])
    ensures n < |s| ==> !IsDigit(s[n])
  {
    if s == [] || !IsDigit(s[0]) then 0
    else
      var k := DigitRun(s[1..]);
      assert s[..1 + k] == [s[0]] + s[1..][..k];
      1 + k
  }

  lemma DigitRunOfDigits(a: string, b: string)
    requires AllDigits(a)
    requires b == [] || !IsDigit(b[0])
    ensures DigitRun(a + b) == |a|
  {
    var s := a + b;
    var n := DigitRun(s);
    assert forall i | 0 <= i < |a| :: IsDigit(s[i]);
    assert |a| < |s| ==> !IsDigit(s[|a|]);
    assert forall i | 0 <= i < n :: IsDigit(s[..n][i]);
  }

  function Pow10(n: nat): (p: nat)
    ensures p >= 1
  {
    if n == 0 then 1 else 10 * Pow10(n - 1)
  }

  /** What a scan found: the number and how many characters it consumed. */
  datatype Scan = Scan(value: Parsed, length: nat)

  /** The value of `digits.fraction`; an empty fraction adds nothing. */
  function Magnitude(digits: string, fraction: string): real
    requires AllDigits(digits) && AllDigits(fraction)
  {
    if fraction == "" then DecimalValue(digits) as real
    else DecimalValue(digits) as real + DecimalValue(fraction) as real / Pow10(|fraction|) as real
  }

  /** Reads the longest prefix of the form `digits ('.' digits)?` that holds at
      least one digit on either side of the point. */
  function ScanUnsigned(body: string): (r: Scan)
    ensures r.length <= |body|
    ensures r.value.NaN? <==> r.length == 0
    ensures r.value.Num? ==> exists i | 0 <= i < r.length :: IsDigit(body[i])
  {
    var whole := DigitRun(body);
    var dotted := whole < |body| && body[whole] == '.';
    var frac := if dotted then DigitRun(body[whole + 1..]) else 0;
    if whole == 0 && frac == 0 then Scan(NaN, 0)
    else
      var fraction := if dotted then body[whole + 1..][..frac] else "";
      assert whole > 0 ==> IsDigit(body[0]) by {
        if whole > 0 {
          assert body[..whole][0] == body[0];
        }
      }
      assert whole == 0 ==> IsDigit(body[1]) by {
        if whole == 0 {
          assert fraction[0] == body[1];
        }
      }
      Scan(Num(Magnitude(body[..whole], fraction)), whole + (if dotted then 1 + frac else 0))
  }

  /** Reads the longest prefix of the form `[+-]? digits ('.' digits)?` that holds
      at least one digit on either side of the point. */
  function ScanNumber(s: string): (r: Scan)
    ensures r.length <= |s|
    ensures r.value.NaN? <==> r.length == 0
    ensures r.value.Num? ==> exists i | 0 <= i < r.length :: IsDigit(s[i])
  {
    if |s| > 0 && (s[0] == '-' || s[0] == '+') then
      var u := ScanUnsigned(s[1..]);
      if u.value.NaN? then Scan(NaN, 0)
      else
        assert exists i | 0 <= i < u.length + 1 :: IsDigit(s[i]) by {
          var i :| 0 <= i < u.length && IsDigit(s[1..][i]);
          assert s[i + 1] == s[1..][i];
        }
        Scan(Num(if s[0] == '-' then -u.value.value else u.value.value), u.length + 1)
    else
      ScanUnsigned(s)
  }

  /** `parseFloat(s)`. */
  function ParseFloat(s: string): Parsed
  {
    ScanNumber(s).value
  }

  /** `Number(s)`: the empty string is 0, anything not wholly numeric is NaN. */
  function ToNumber(s: string): (p: Parsed)
    ensures s == "" ==> p == Num(0.0)
    ensures s != "" && p.Num? ==> p == ParseFloat(s)
  {
    if s == "" then Num(0.0)
    else
      var r := ScanNumber(s);
      if r.length == |s| then r.value else NaN
  }

  /** A run of digits followed by something that cannot continue a number is
      scanned as that run's value. */
  lemma ScanDigits(d: string, rest: string)
    requires |d| >= 1 && AllDigits(d)
    requires rest == [] || (!IsDigit(rest[0]) && rest[0] != '.')
    ensures ScanUnsigned(d + rest) == Scan(Num(DecimalValue(d) as real), |d|)
  {
    var s := d + rest;
    DigitRunOfDigits(d, rest);
    assert |d| < |s| ==> s[|d|] == rest[0];
    assert s[..|d|] == d;
  }

  /** A minus sign negates what the unsigned scan of the rest finds. */
  lemma ScanMinus(body: string, v: real, len: nat)
    requires ScanUnsigned(body) == Scan(Num(v), len)
    ensures ScanNumber(['-'] + body) == Scan(Num(-v), len + 1)
  {
    assert (['-'] + body)[1..] == body;
  }

  /** Without a sign the whole scan is the unsigned scan. */
  lemma ScanNoSign(s: string)
    requires |s| >= 1 && IsDigit(s[0])
    ensures ScanNumber(s) == ScanUnsigned(s)
  {
  }

  lemma ScanNaturalThen(n: nat, rest: string)
    requires rest == [] || (!IsDigit(rest[0]) && rest[0] != '.')
    ensures ScanNumber(Decimal(n) + rest) == Scan(Num(n as real), |Decimal(n)|)
  {
    var d := Decimal(n);
    DecimalRoundTrip(n);
    ScanDigits(d, rest);
    ScanNoSign(d + rest);
  }

  lemma ScanNegativeThen(n: nat, rest: string)
    requires rest == [] || (!IsDigit(rest[0]) && rest[0] != '.')
    ensures ScanNumber("-" + Decimal(n) + rest) == Scan(Num(-(n as real)), |Decimal(n)| + 1)
  {
    var d := Decimal(n);
    ConcatAssoc("-", d, rest);
    DecimalRoundTrip(n);
    ScanDigits(d, rest);
    ScanMinus(d + rest, n as real, |d|);
  }


  /** `String(i)` followed by text that cannot continue a number scans as i. */
  lemma ScanIntegerThen(i: int, rest: string)
    requires rest == [] || (!IsDigit(rest[0]) && rest[0] != '.')
    ensures ScanNumber(IntToDecimal(i) + rest) == Scan(Num(i as real), |IntToDecimal(i)|)
  {
    var t := IntToDecimal(i);
    if i < 0 {
      var n: nat := -i;
      assert t == "-" + Decimal(n);
      ScanNegativeThen(n, rest);
      assert -(n as real) == i as real;
    } else {
      assert t == Decimal(i);
      ScanNaturalThen(i, rest);
    }
  }

  /** Both parsers read back what `String(i)` wrote for an integer. */
  lemma ScanInteger(i: int)
    ensures ScanNumber(IntToDecimal(i)) == Scan(Num(i as real), |IntToDecimal(i)|)
  {
    ScanIntegerThen(i, []);
    assert IntToDecimal(i) + [] == IntToDecimal(i);
  }

  lemma ParseInteger(i: int)
    ensures ParseFloat(IntToDecimal(i)) == Num(i as real)
    ensures ToNumber(IntToDecimal(i)) == Num(i as real)
  {
    ScanInteger(i);
  }

  lemma ParseDecimal(n: nat)
    ensures ParseFloat(Decimal(n)) == Num(n as real)
    ensures ToNumber(Decimal(n)) == Num(n as real)
  {
    ParseInteger(n);
  }

  /** The white space and line terminators `Number` trims from either end. */
  const JsSpaces := "\t\n\U{000B}\U{000C}\r \U{00A0}\U{1680}"
    + "\U{2000}\U{2001}\U{2002}\U{2003}\U{2004}\U{2005}\U{2006}\U{2007}\U{2008}\U{2009}\U{200A}"
    + "\U{2028}\U{2029}\U{202F}\U{205F}\U{3000}\U{FEFF}"

  /** A character that ends a written integer for both parsers: no digit, no
      decimal point, no exponent mark and no white space. */
  predicate StopsNumber(c: char) {
    !IsDigit(c) && c != '.' && c != 'e' && c != 'E' && c !in JsSpaces
  }

  /** The letters that make a leading "0" a radix prefix for `Number`. */
  predicate RadixMark(c: char) {
    c == 'x' || c == 'X' || c == 'b' || c == 'B' || c == 'o' || c == 'O'
  }

  /** `parseFloat` stops at the first character that cannot continue the number,
      where `Number` rejects the whole string. */
  lemma ParseFloatIgnoresTrailing(i: int, rest: string)
    requires rest != [] && StopsNumber(rest[0]) && !(i == 0 && RadixMark(rest[0]))
    ensures ParseFloat(IntToDecimal(i) + rest) == Num(i as real)
    ensures ToNumber(IntToDecimal(i) + rest) == NaN
  {
    ScanIntegerThen(i, rest);
  }
}

=== FILE: persian_numbers.dfy ===
/** Number formatting for the two interface languages. Plain numbers and
    percentages are written the same way in both; a currency amount, whose
    locale formatting is a parameter here, has its Persian digits turned back
    into ASCII digits when the language is Persian. */
module PersianNumbers {
  import opened Text
  import opened Numbers

  /** The first of the ten Extended Arabic-Indic digits, U+06F0 to U+06F9. */
  const PersianZero: int := 0x06F0

  const PersianDigits := "\U{06F0}\U{06F1}\U{06F2}\U{06F3}\U{06F4}\U{06F5}\U{06F6}\U{06F7}\U{06F8}\U{06F9}"

  const AsciiDigits := "0123456789"

  /** The character class `[۰-۹]`. */
  predicate IsPersianDigit(c: char) {
    '\U{06F0}' <= c <= '\U{06F9}'
  }

  lemma PersianTable()
    ensures |PersianDigits| == 10 && |AsciiDigits| == 10
    ensures forall k | 0 <= k < 10 :: PersianDigits[k] as int == PersianZero + k
    ensures forall k | 0 <= k < 10 :: AsciiDigits[k] == DigitChar(k)
  {
  }

  lemma IndexOfUnique(s: string, c: char, k: nat)
    requires k < |s| && s[k] == c
    requires forall j | 0 <= j < k :: s[j] != c
    ensures IndexOf(s, c) == k
  {
  }

  /** The replacement callback: look the digit up in the Persian table and take
      the ASCII digit at the same place. */
  function AsciiOf(c: char): (d: char)
    requires IsPersianDigit(c)
    ensures IsDigit(d)
    ensures DigitValue(d) == c as int - PersianZero
  {
    PersianTable();
    var k := c as int - PersianZero;
    IndexOfUnique(PersianDigits, c, k);
    AsciiDigits[IndexOf(PersianDigits, c)]
  }

  /** `s.replace(/[۰-۹]/g, callback)`. */
  function ToAsciiDigits(s: string): (r: string)
    ensures |r| == |s|
    ensures forall i | 0 <= i < |s| :: !IsPersianDigit(r[i])
    ensures forall i | 0 <= i < |s| && !IsPersianDigit(s[i]) :: r[i] == s[i]
    ensures forall i | 0 <= i < |s| && IsPersianDigit(s[i]) ::
              IsDigit(r[i]) && DigitValue(r[i]) == s[i] as int - PersianZero
  {
    seq(|s|, i requires 0 <= i < |s| => if IsPersianDigit(s[i]) then AsciiOf(s[i]) else s[i])
  }

  /** Replacing twice changes nothing more. */
  lemma ToAsciiIdempotent(s: string)
    ensures ToAsciiDigits(ToAsciiDigits(s)) == ToAsciiDigits(s)
  {
  }

  /** A string of ASCII digits written with the Persian digits instead. */
  function ToPersianDigits(d: string): (p: string)
    requires AllDigits(d)
    ensures |p| == |d|
    ensures forall i | 0 <= i < |d| :: IsPersianDigit(p[i]) && p[i] as int - PersianZero == DigitValue(d[i])
  {
    seq(|d|, i requires 0 <= i < |d| => (PersianZero + DigitValue(d[i])) as char)
  }

  /** Going to Persian digits and back is the identity on digit strings. */
  lemma ToAsciiUndoesPersian(d: string)
    requires AllDigits(d)
    ensures ToAsciiDigits(ToPersianDigits(d)) == d
  {
    var r := ToAsciiDigits(ToPersianDigits(d));
    forall i | 0 <= i < |d|
      ensures r[i] == d[i]
    {
      assert DigitValue(r[i]) == DigitValue(d[i]);
    }
  }

  /** A number written in Persian digits, turned into ASCII, reads back as that number. */
  lemma PersianDecimalReadsBack(n: nat)
    ensures ToNumber(ToAsciiDigits(ToPersianDigits(Decimal(n)))) == Num(n as real)
  {
    ToAsciiUndoesPersian(Decimal(n));
    ParseDecimal(n);
  }

  /** `formatCurrency` after the locale formatting, which arrives as `formatted`. */
  function FormatCurrency(formatted: string, language: string): (r: string)
    ensures |r| == |formatted|
    ensures language != "fa" ==> r == formatted
    ensures language == "fa" ==> forall i | 0 <= i < |r| :: !IsPersianDigit(r[i])
    ensures language == "fa" ==> forall i | 0 <= i < |r| && !IsPersianDigit(formatted[i]) :: r[i] == formatted[i]
    ensures language == "fa" ==> forall i | 0 <= i < |r| && IsPersianDigit(formatted[i]) ::
              IsDigit(r[i]) && DigitValue(r[i]) == formatted[i] as int - PersianZero
  {
    if language == "fa" then ToAsciiDigits(formatted) else formatted
  }

  /** A number or a string, as `formatNumberForLanguage` accepts. */
  datatype Value = Number(n: int) | Text(s: string)

  /** `String(value)`. */
  function ValueString(v: Value): string
  {
    match v
    case Number(n) => IntToDecimal(n)
    case Text(s) => s
  }

  /** `formatNumberForLanguage`: both languages get the same ASCII string form,
      which for a number reads back as that number. */
  function FormatNumberForLanguage(v: Value, language: string): (r: string)
    ensures v.Text? ==> r == v.s
    ensures v.Number? ==> r == IntToDecimal(v.n)
    ensures v.Number? ==> ToNumber(r) == Num(v.n as real)
    ensures v.Number? ==> forall i | 0 <= i < |r| :: !IsPersianDigit(r[i])
  {
    if v.Number? then ParseInteger(v.n); ValueString(v)
    else ValueString(v)
  }

  lemma FormatNumberSameInBothLanguages(v: Value)
    ensures FormatNumberForLanguage(v, "fa") == FormatNumberForLanguage(v, "en")
  {
  }

  /** `formatPercent`: the number, then "%", in both languages. */
  function FormatPercent(value: int, language: string): (r: string)
    ensures |r| >= 2 && r[|r| - 1] == '%'
    ensures r[..|r| - 1] == IntToDecimal(value)
    ensures ToNumber(r[..|r| - 1]) == Num(value as real)
  {
    var s := IntToDecimal(value);
    ParseInteger(value);
    assert (s + "%")[..|s|] == s;
    s + "%"
  }

  lemma FormatPercentSameInBothLanguages(value: int)
    ensures FormatPercent(value, "fa") == FormatPercent(value, "en")
  {
  }
}

=== FILE: text.dfy ===
/** Strings as the JavaScript runtime builds them: `String(n)` for integers,
    `padStart`, `Array.prototype.join` and `String.prototype.split` on a
    one-character separator, and removal of one character everywhere. */
module Text {

  predicate IsDigit(c: char) {
    '0' <= c <= '9'
  }

  predicate AllDigits(s: string) {
    forall i | 0 <= i < |s| :: IsDigit(s[i])
  }

  function DigitValue(c: char): (d: nat)
    requires IsDigit(c)
    ensures d < 10
  {
    (c as int) - 48
  }

  function DigitChar(d: nat): (c: char)
    requires d < 10
    ensures IsDigit(c) && DigitValue(c) == d
  {
    (48 + d) as char
  }

  /** `String(n)` for a non-negative integer: base-ten digits without a leading zero. */
  function Decimal(n: nat): (s: string)
    ensures AllDigits(s)
    ensures 1 <= |s|
    ensures |s| == 1 <==> n < 10
    ensures s[0] == '0' ==> n == 0
    decreases n
  {
    if n < 10 then [DigitChar(n)] else Decimal(n / 10) + [DigitChar(n % 10)]
  }

  /** The number a string of digits denotes (leading zeros allowed). */
  function DecimalValue(s: string): nat
    requires AllDigits(s)
  {
    if s == [] then 0 else 10 * DecimalValue(s[..|s| - 1]) + DigitValue(s[|s| - 1])
  }

  /** Reading back what `Decimal` wrote gives the number again. */
  lemma {:induction false} DecimalRoundTrip(n: nat)
    ensures DecimalValue(Decimal(n)) == n
    decreases n
  {
    if n >= 10 {
      var s := Decimal(n);
      assert s[..|s| - 1] == Decimal(n / 10);
      DecimalRoundTrip(n / 10);
    }
  }

  lemma DecimalInjective(a: nat, b: nat)
    requires Decimal(a) == Decimal(b)
    ensures a == b
  {
    DecimalRoundTrip(a);
    DecimalRoundTrip(b);
  }

  lemma {:induction false} LeadingDigitPositive(s: string)
    requires AllDigits(s) && 1 <= |s| && s[0] != '0'
    ensures DecimalValue(s) >= 1
    decreases |s|
  {
    if |s| > 1 {
      LeadingDigitPositive(s[..|s| - 1]);
    }
  }

  /** The other direction: a canonical digit string is what `Decimal` writes for its value. */
  lemma {:induction false} DecimalOfValue(s: string)
    requires AllDigits(s) && 1 <= |s|
    requires |s| > 1 ==> s[0] != '0'
    ensures Decimal(DecimalValue(s)) == s
    decreases |s|
  {
    if |s| > 1 {
      var p := s[..|s| - 1];
      LeadingDigitPositive(p);
      DecimalOfValue(p);
      assert s == p + [s[|s| - 1]];
    }
  }

  /** A decimal rendering followed by a non-digit mark can be split in only one way. */
  lemma DecimalThenMark(a: nat, b: nat, c: char, d: char, t: string, u: string)
    requires !IsDigit(c) && !IsDigit(d)
    requires Decimal(a) + [c] + t == Decimal(b) + [d] + u
    ensures a == b && c == d && t == u
  {
    var x, y := Decimal(a), Decimal(b);
    var w := Decimal(a) + [c] + t;
    assert w[|x|] == c && (y + [d] + u)[|y|] == d;
    assert forall i | 0 <= i < |x| :: IsDigit(w[i]);
    assert forall i | 0 <= i < |y| :: IsDigit(w[i]);
    assert x == w[..|x|] == y;
    DecimalInjective(a, b);
    assert t == w[|x| + 1..] == u;
  }

  /** `String(i)` for any integer. */
  function IntToDecimal(i: int): (s: string)
    ensures 1 <= |s|
    ensures s[0] == '-' <==> i < 0
    ensures i >= 0 ==> AllDigits(s)
    ensures i < 0 ==> |s| >= 2 && AllDigits(s[1..])
  {
    if i < 0 then "-" + Decimal(-i) else Decimal(i)
  }

  /** `s.padStart(width, fill)` with a one-character fill. */
  function PadStart(s: string, width: nat, fill: char): (r: string)
    ensures |r| == if |s| >= width then |s| else width
    ensures r[|r| - |s|..] == s
    ensures forall i | 0 <= i < |r| - |s| :: r[i] == fill
  {
    if |s| >= width then s else seq(width - |s|, _ => fill) + s
  }

  /** `s.indexOf(c)`, with "not found" reported as `|s|` instead of -1. */
  function IndexOf(s: string, c: char): (i: nat)
    ensures i <= |s|
    ensures i < |s| ==> s[i] == c
    ensures forall j | 0 <= j < i :: s[j] != c
  {
    if s == [] then 0 else if s[0] == c then 0 else 1 + IndexOf(s[1..], c)
  }

  lemma IndexOfFirst(a: string, c: char, b: string)
    requires c !in a
    ensures IndexOf(a + [c] + b, c) == |a|
  {
    var s := a + [c] + b;
    var i := IndexOf(s, c);
    assert s[|a|] == c;
  }

  lemma IndexOfAbsent(a: string, c: char)
    requires c !in a
    ensures IndexOf(a, c) == |a|
  {
    var i := IndexOf(a, c);
  }

  /** `parts.join(sep)`; the empty array joins to the empty string. */
  function Join(parts: seq<string>, sep: char): string
  {
    if |parts| == 0 then ""
    else if |parts| == 1 then parts[0]
    else parts[0] + [sep] + Join(parts[1..], sep)
  }

  /** The first piece opens the joined text. */
  lemma JoinPrefix(parts: seq<string>, sep: char)
    requires |parts| >= 1
    ensures parts[0] <= Join(parts, sep)
    ensures |parts| == 1 ==> Join(parts, sep) == parts[0]
  {
    if |parts| > 1 {
      assert Join(parts, sep) == parts[0] + ([sep] + Join(parts[1..], sep));
    }
  }

  lemma ConcatAssoc(a: string, b: string, c: string)
    ensures a + (b + c) == a + b + c
  {
  }

  /** A cell followed by the separator and the join of at least one more cell. */
  lemma JoinCons(first: string, rest: seq<string>, sep: char, joined: string, cell: string)
    requires |rest| >= 1 && Join(rest, sep) == joined && cell == first + [sep]
    ensures Join([first] + rest, sep) == cell + joined
  {
    assert ([first] + rest)[1..] == rest;
  }

  /** A cell holding the separator joins to the same text as its two halves
      given as separate cells. */
  lemma {:induction false} JoinSplitCell(pre: seq<string>, x: string, y: string, post: seq<string>, sep: char)
    ensures Join(pre + [x + [sep] + y] + post, sep) == Join(pre + [x, y] + post, sep)
    decreases |pre|
  {
    var cell := x + [sep] + y;
    if |pre| == 0 {
      assert pre + [cell] + post == [cell] + post;
      assert pre + [x, y] + post == [x] + ([y] + post);
      if |post| == 0 {
        assert [cell] + post == [cell];
        JoinCons(x, [y], sep, y, x + [sep]);
        assert [x] + [y] + post == [x] + ([y] + post);
      } else {
        JoinCons(cell, post, sep, Join(post, sep), cell + [sep]);
        JoinCons(y, post, sep, Join(post, sep), y + [sep]);
        JoinCons(x, [y] + post, sep, (y + [sep]) + Join(post, sep), x + [sep]);
        ConcatAssoc(x + [sep], y + [sep], Join(post, sep));
        ConcatAssoc(x + [sep], y, [sep]);
      }
    } else {
      var l, r := pre + [cell] + post, pre + [x, y] + post;
      JoinSplitCell(pre[1..], x, y, post, sep);
      assert l[1..] == pre[1..] + [cell] + post;
      assert r[1..] == pre[1..] + [x, y] + post;
    }
  }

  /** `s.split(sep)`: never empty, and no piece contains the separator. */
  function Split(s: string, sep: char): (parts: seq<string>)
    ensures |parts| >= 1
    ensures forall k | 0 <= k < |parts| :: sep !in parts[k]
    decreases |s|
  {
    var i := IndexOf(s, sep);
    if i == |s| then [s] else [s[..i]] + Split(s[i + 1..], sep)
  }

  /** Splitting a joined list gives the list back when no piece contains the separator. */
  lemma {:induction false} SplitJoin(parts: seq<string>, sep: char)
    requires |parts| >= 1
    requires forall k | 0 <= k < |parts| :: sep !in parts[k]
    ensures Split(Join(parts, sep), sep) == parts
    decreases |parts|
  {
    if |parts| == 1 {
      IndexOfAbsent(parts[0], sep);
    } else {
      SplitCons(parts[0], sep, Join(parts[1..], sep));
      SplitJoin(parts[1..], sep);
      assert parts == [parts[0]] + parts[1..];
    }
  }

  /** A separator-free piece and a separator split off as the first piece. */
  lemma SplitCons(a: string, sep: char, rest: string)
    requires sep !in a
    ensures Split(a + [sep] + rest, sep) == [a] + Split(rest, sep)
  {
    IndexOfFirst(a, sep, rest);
    var s := a + [sep] + rest;
    assert s[..|a|] == a;
    assert s[|a| + 1..] == rest;
  }

  /** The first piece of a split ends at the first separator. */
  lemma SplitAtFirst(s: string, sep: char)
    requires IndexOf(s, sep) < |s|
    ensures Split(s, sep) == [s[..IndexOf(s, sep)]] + Split(s[IndexOf(s, sep) + 1..], sep)
  {
  }

  /** A string is its prefix, the character at `i` and its suffix. */
  lemma Around(s: string, i: nat, c: char)
    requires i < |s| && s[i] == c
    ensures s == s[..i] + [c] + s[i + 1..]
  {
  }

  /** Joining the pieces of a split restores the string. */
  lemma {:induction false} JoinSplit(s: string, sep: char)
    ensures Join(Split(s, sep), sep) == s
    decreases |s|
  {
    var i := IndexOf(s, sep);
    if i < |s| {
      SplitAtFirst(s, sep);
      Around(s, i, sep);
      var head, rest := s[..i], s[i + 1..];
      JoinSplit(rest, sep);
      JoinCons(head, Split(rest, sep), sep, rest, head + [sep]);
    }
  }

  /** A character that is neither the separator nor in any piece is not in the join. */
  lemma {:induction false} JoinExcludes(parts: seq<string>, sep: char, c: char)
    requires c != sep
    requires forall k | 0 <= k < |parts| :: c !in parts[k]
    ensures c !in Join(parts, sep)
    decreases |parts|
  {
    if |parts| > 1 {
      JoinExcludes(parts[1..], sep, c);
      assert parts[0] == parts[0];
    }
  }

  /** `s` with every `c` deleted (`s.replace(/c/g, "")`). */
  function Strip(s: string, c: char): string
  {
    if s == [] then [] else (if s[0] == c then [] else [s[0]]) + Strip(s[1..], c)
  }

  lemma {:induction false} StripAppend(a: string, b: string, c: char)
    ensures Strip(a + b, c) == Strip(a, c) + Strip(b, c)
    decreases |a|
  {
    if a != [] {
      assert (a + b)[1..] == a[1..] + b;
      StripAppend(a[1..], b, c);
    } else {
      assert a + b == b;
    }
  }

  lemma {:induction false} StripAbsent(a: string, c: char)
    requires c !in a
    ensures Strip(a, c) == a
    decreases |a|
  {
    if a != [] {
      StripAbsent(a[1..], c);
      assert a == [a[0]] + a[1..];
    }
  }
}

=== FILE: theme.dfy ===
/** The theme hook: the theme read from storage at start (default "light"), and
    the effect that mirrors it onto the root element and back into storage.
    The stored value is not checked, so a theme is any string here. */
module Theme {
  import opened Common

  const Light := "light"
  const Dark := "dark"
  const Legendary := "legendary"

  /** The class names the effect removes before adding the current one. */
  const ThemeClasses: set<string> := {Light, Dark, Legendary}

  /** The initial state: the stored preference when it is a non-empty string. */
  function InitialTheme(stored: Option<string>): (theme: string)
    ensures theme != ""
    ensures TruthyText(stored) ==> theme == stored.value
    ensures !TruthyText(stored) ==> theme == Light
  {
    if TruthyText(stored) then stored.value else Light
  }

  /** What the effect touches: the root's class list (as a set of names), its
      `data-theme` attribute and the stored preference. */
  datatype Root = Root(classes: set<string>, dataTheme: Option<string>, stored: Option<string>)

  /** The ASCII whitespace of the DOM's token lists. */
  predicate AsciiSpace(c: char) {
    c == ' ' || c == '\t' || c == '\n' || c == '\r' || c == '\U{000C}'
  }

  /** A string `classList.add` accepts: non-empty and free of ASCII whitespace. */
  predicate ValidToken(t: string) {
    t != "" && forall i | 0 <= i < |t| :: !AsciiSpace(t[i])
  }

  /** The effect's `classList.add(theme)` throws: the theme is not light and is
      no valid token. The attribute and the stored value are written by then,
      and the theme classes are already removed. */
  predicate AddThrows(theme: string) {
    theme != Light && !ValidToken(theme)
  }

  /** The effect for `theme`: set the attribute and the stored value, remove
      the three theme classes, then add the theme as a class unless it is light.
      When the add throws, the root is left as it stands at that point. */
  function Apply(root: Root, theme: string): (r: Root)
    ensures r.dataTheme == Some(theme) && r.stored == Some(theme)
    ensures ValidToken(theme) ==> (theme in r.classes <==> theme != Light)
    ensures AddThrows(theme) ==> r.classes == root.classes - ThemeClasses
    ensures forall c | c in ThemeClasses && c != theme :: c !in r.classes
    ensures forall c | c !in ThemeClasses && c != theme :: c in r.classes <==> c in root.classes
  {
    var kept := root.classes - ThemeClasses;
    Root(if theme != Light && ValidToken(theme) then kept + {theme} else kept, Some(theme), Some(theme))
  }

  /** A theme holding a space never becomes a class: the add throws and the
      class list keeps only what was there besides the theme classes. */
  lemma SpacedThemeNotAdded(root: Root, theme: string, k: nat)
    requires k < |theme| && theme[k] == ' '
    ensures AddThrows(theme)
    ensures Apply(root, theme).classes <= root.classes
  {
  }

  /** At most one of the three theme classes is on the root after the effect,
      and it is the current theme's. */
  lemma AtMostOneThemeClass(root: Root, theme: string)
    ensures Apply(root, theme).classes * ThemeClasses == if theme in ThemeClasses - {Light} then {theme} else {}
  {
  }

  /** Running the effect again for the same theme changes nothing. */
  lemma ApplyIdempotent(root: Root, theme: string)
    ensures Apply(Apply(root, theme), theme) == Apply(root, theme)
  {
  }

  /** Switching between the three known themes leaves the root as if only the
      last one had been applied. */
  lemma ApplyOverrides(root: Root, first: string, second: string)
    requires first in ThemeClasses
    ensures Apply(Apply(root, first), second) == Apply(root, second)
  {
  }

  /** An unknown stored theme is added as a class and is not removed when the
      theme later changes. */
  lemma UnknownThemeClassLingers(root: Root, unknown: string, next: string)
    requires unknown !in ThemeClasses && ValidToken(unknown) && next != unknown
    ensures unknown in Apply(Apply(root, unknown), next).classes
  {
  }

  /** The root at start-up after the first effect run. */
  lemma StartUp(root: Root, stored: Option<string>)
    ensures var r := Apply(root, InitialTheme(stored));
            && r.stored == Some(InitialTheme(stored))
            && (!TruthyText(stored) ==> r.dataTheme == Some(Light) && r.classes * ThemeClasses == {})
  {
    AtMostOneThemeClass(root, InitialTheme(stored));
  }
}

=== FILE: theme_toggle.dfy ===
/** The one-button theme toggle: any dark theme goes to light, anything else to dark. */
module ThemeToggle {
  import opened Theme

  /** `theme === "dark" || theme === "legendary"`. */
  predicate IsDark(theme: string)
    ensures IsDark(theme) ==> theme in ThemeClasses && theme != Light
  {
    theme == Dark || theme == Legendary
  }

  /** The theme the button sets. */
  function Toggle(theme: string): (r: string)
    ensures r == Light || r == Dark
    ensures IsDark(r) <==> !IsDark(theme)
  {
    if IsDark(theme) then Light else Dark
  }

  /** Two presses restore light and dark; legendary comes back as dark. */
  lemma ToggleTwice(theme: string)
    ensures Toggle(Toggle(theme)) == theme <==> theme == Light || theme == Dark
    ensures theme == Legendary ==> Toggle(Toggle(theme)) == Dark
  {
  }

  /** After a press and the effect, the root's theme classes are exactly
      {"dark"} when the theme was not dark, and none otherwise. */
  lemma ToggleOnRoot(root: Root, theme: string)
    ensures var r := Apply(root, Toggle(theme));
            && r.classes * ThemeClasses == (if IsDark(theme) then {} else {Dark})
            && Legendary !in r.classes
  {
    AtMostOneThemeClass(root, Toggle(theme));
  }
}

=== FILE: transaction_export.dfy ===
/** The CSV export of the wallet's transactions: a fixed header line, then one
    line per transaction in input order. Every value is written as is, a zero
    amount included; the type and status are the enum's string values. */
module TransactionExport {
  import opened Text
  import opened Numbers
  import opened Csv
  import opened Ledger

  const Header: seq<string> := ["ID", "Type", "Amount", "Date", "Status"]

  /** The five cells of a transaction's line. */
  function Row(t: Transaction): (r: seq<string>)
    ensures |r| == |Header|
    ensures r[0] == t.id && r[3] == t.date
    ensures r[1] == TypeName(t.kind) && r[4] == StatusName(t.status)
    ensures r[2] == IntToDecimal(t.amount)
  {
    [t.id, TypeName(t.kind), IntToDecimal(t.amount), t.date, StatusName(t.status)]
  }

  /** The CSV text `handleExport("csv")` puts in the file. */
  function ExportCsv(ts: seq<Transaction>): (csv: string)
    ensures FirstLine <= csv
    ensures ts == [] ==> csv == FirstLine
  {
    HeaderLine();
    assert ([Header] + MapRows(ts, Row))[0] == Header;
    Document([Header] + MapRows(ts, Row))
  }

  /** The type and status cells read back as the enum value they came from. */
  lemma NamesDistinct(a: Transaction, b: Transaction)
    ensures TypeName(a.kind) == TypeName(b.kind) <==> a.kind == b.kind
    ensures StatusName(a.status) == StatusName(b.status) <==> a.status == b.status
  {
    assert "deposit"[0] != "withdraw"[0];
    assert "completed"[0] != "pending"[0];
  }

  /** The amount cell is an exact decimal: read back as a number it is the amount. */
  lemma AmountReadsBack(t: Transaction)
    ensures ToNumber(Row(t)[2]) == Num(t.amount as real)
    ensures ParseFloat(Row(t)[2]) == Num(t.amount as real)
  {
    ParseInteger(t.amount);
  }

  /** A zero amount is written "0", not replaced by a dash. */
  lemma ZeroAmountWritten(t: Transaction)
    requires t.amount == 0
    ensures Row(t)[2] == "0"
  {
  }

  lemma RowCells(t: Transaction, plain: bool)
    requires plain ==> Plain(t.id) && Plain(t.date)
    requires '\n' !in t.id && '\n' !in t.date
    ensures forall j | 0 <= j < |Row(t)| :: '\n' !in Row(t)[j]
    ensures plain ==> forall j | 0 <= j < |Row(t)| :: Plain(Row(t)[j])
  {
    IntPlain(t.amount);
  }

  lemma AllRowCells(ts: seq<Transaction>, plain: bool)
    requires forall i | 0 <= i < |ts| :: '\n' !in ts[i].id && '\n' !in ts[i].date
    requires plain ==> forall i | 0 <= i < |ts| :: Plain(ts[i].id) && Plain(ts[i].date)
    ensures NoNewline([Header] + MapRows(ts, Row))
    ensures plain ==> AllPlain([Header] + MapRows(ts, Row))
  {
    var rows := [Header] + MapRows(ts, Row);
    forall i | 0 <= i < |rows|
      ensures forall j | 0 <= j < |rows[i]| :: '\n' !in rows[i][j]
      ensures plain ==> forall j | 0 <= j < |rows[i]| :: Plain(rows[i][j])
    {
      if i > 0 {
        assert rows[i] == Row(ts[i - 1]);
        RowCells(ts[i - 1], plain);
      }
    }
  }

  /** The file's first line, "ID,Type,Amount,Date,Status", written cell by cell. */
  const FirstLine := "ID," + ("Type," + ("Amount," + ("Date," + "Status")))

  /** The header's cells are joined as the file's first line. */
  lemma HeaderLine()
    ensures Line(Header) == FirstLine
  {
    JoinCons("Date", ["Status"], ',', "Status", "Date,");
    JoinCons("Amount", ["Date", "Status"], ',', "Date," + "Status", "Amount,");
    JoinCons("Type", ["Amount", "Date", "Status"], ',', "Amount," + ("Date," + "Status"), "Type,");
    JoinCons("ID", ["Type", "Amount", "Date", "Status"], ',',
      "Type," + ("Amount," + ("Date," + "Status")), "ID,");
  }

  /** With no newline in an id or date, the export has n + 1 lines: the header
      line exactly, then each transaction's cells joined by commas, in order. */
  lemma ExportLines(ts: seq<Transaction>)
    requires forall i | 0 <= i < |ts| :: '\n' !in ts[i].id && '\n' !in ts[i].date
    ensures var ls := Split(ExportCsv(ts), '\n');
            && |ls| == |ts| + 1
            && ls[0] == FirstLine
            && forall i | 0 <= i < |ts| :: ls[i + 1] == Line(Row(ts[i]))
  {
    var rows := MapRows(ts, Row);
    AllRowCells(ts, false);
    HeaderThenLines(Header, rows);
    HeaderLine();
    forall i | 0 <= i < |ts|
      ensures Line(rows[i]) == Line(Row(ts[i]))
    {
    }
  }

  /** Each transaction's cells give back its id, date and amount. */
  lemma CellsReadBack(rows: seq<seq<string>>, ts: seq<Transaction>)
    requires rows == [Header] + MapRows(ts, Row)
    ensures forall i | 0 <= i < |ts| ::
              && |rows[i + 1]| == 5
              && rows[i + 1][0] == ts[i].id
              && rows[i + 1][3] == ts[i].date
              && ToNumber(rows[i + 1][2]) == Num(ts[i].amount as real)
  {
    forall i | 0 <= i < |ts|
      ensures |rows[i + 1]| == 5 && rows[i + 1][0] == ts[i].id && rows[i + 1][3] == ts[i].date
      ensures rows[i + 1][2] == IntToDecimal(ts[i].amount)
    {
      assert rows[i + 1] == Row(ts[i]);
    }
    forall i | 0 <= i < |ts|
      ensures ToNumber(rows[i + 1][2]) == Num(ts[i].amount as real)
    {
      ParseInteger(ts[i].amount);
    }
  }

  /** With no separator in an id or date, reading the export back gives the
      header and each transaction's five cells, from which the transaction's
      id, date and amount are recovered, the amount through the number reader. */
  lemma ExportParses(ts: seq<Transaction>)
    requires forall i | 0 <= i < |ts| :: Plain(ts[i].id) && Plain(ts[i].date)
    ensures var rows := Parse(ExportCsv(ts));
            && rows == [Header] + MapRows(ts, Row)
            && forall i | 0 <= i < |ts| ::
                 && |rows[i + 1]| == 5
                 && rows[i + 1][0] == ts[i].id
                 && rows[i + 1][3] == ts[i].date
                 && ToNumber(rows[i + 1][2]) == Num(ts[i].amount as real)
  {
    AllRowCells(ts, true);
    ParseDocument([Header] + MapRows(ts, Row));
    CellsReadBack(Parse(ExportCsv(ts)), ts);
  }

  /** Without quoting, a date holding a comma shifts the status one column right. */
  lemma CommaInDateAddsField(t: Transaction, x: string, y: string)
    requires t.date == x + "," + y
    requires Plain(x) && Plain(y) && Plain(t.id)
    ensures var fields := Split(Line(Row(t)), ',');
            |fields| == 6 && fields[3] == x && fields[4] == y && fields[5] == StatusName(t.status)
  {
    var r := Row(t);
    var pre, post := r[..3], r[4..];
    assert r == pre + [x + [','] + y] + post;
    JoinSplitCell(pre, x, y, post, ',');
    var cut := pre + [x, y] + post;
    assert cut == [t.id, TypeName(t.kind), IntToDecimal(t.amount), x, y, StatusName(t.status)];
    IntPlain(t.amount);
    assert Plain(TypeName(t.kind)) && Plain(StatusName(t.status));
    SplitJoin(cut, ',');
  }
}

=== FILE: transaction_filter.dfy ===
/** The transaction filter panel: four text fields, a payload holding only the
    non-empty ones (the amounts parsed with `parseFloat`) sent on every change,
    the "active" badge, and the clear action. */
module TransactionFilter {
  import opened Common
  import opened Text
  import opened Numbers

  /** The four fields of the `filters` state, as the inputs hold them. */
  datatype Fields = Fields(kind: string, status: string, minAmount: string, maxAmount: string)

  const Cleared := Fields("", "", "", "")

  /** The keys `handleFilterChange` is called with. */
  datatype Key = Type | Status | MinAmount | MaxAmount

  function Get(f: Fields, k: Key): string
  {
    match k
    case Type => f.kind
    case Status => f.status
    case MinAmount => f.minAmount
    case MaxAmount => f.maxAmount
  }

  /** `{ ...filters, [key]: value }`: the named field changes and no other. */
  function Set(f: Fields, k: Key, v: string): (r: Fields)
    ensures Get(r, k) == v
    ensures forall j: Key | j != k :: Get(r, j) == Get(f, j)
  {
    match k
    case Type => f.(kind := v)
    case Status => f.(status := v)
    case MinAmount => f.(minAmount := v)
    case MaxAmount => f.(maxAmount := v)
  }

  /** The object passed to `onFilterChange`; an absent key is `None`. */
  datatype Payload = Payload(
    kind: Option<string>,
    status: Option<string>,
    minAmount: Option<Parsed>,
    maxAmount: Option<Parsed>)

  const EmptyPayload := Payload(None, None, None, None)

  /** The payload built from a field set: a key is present exactly when its
      field is non-empty, the text fields verbatim and the amounts parsed. No
      check relates the minimum to the maximum. */
  function PayloadOf(f: Fields): (p: Payload)
    ensures p.kind.Some? <==> f.kind != ""
    ensures p.kind.Some? ==> p.kind.value == f.kind
    ensures p.status.Some? <==> f.status != ""
    ensures p.status.Some? ==> p.status.value == f.status
    ensures p.minAmount.Some? <==> f.minAmount != ""
    ensures p.minAmount.Some? ==> p.minAmount.value == ParseFloat(f.minAmount)
    ensures p.maxAmount.Some? <==> f.maxAmount != ""
    ensures p.maxAmount.Some? ==> p.maxAmount.value == ParseFloat(f.maxAmount)
  {
    Payload(
      if f.kind != "" then Some(f.kind) else None,
      if f.status != "" then Some(f.status) else None,
      if f.minAmount != "" then Some(ParseFloat(f.minAmount)) else None,
      if f.maxAmount != "" then Some(ParseFloat(f.maxAmount)) else None)
  }

  /** The new state and what was sent to `onFilterChange`. */
  datatype Changed = Changed(fields: Fields, emitted: Payload)

  /** `handleFilterChange(key, value)`. */
  function Change(f: Fields, k: Key, v: string): (r: Changed)
    ensures Get(r.fields, k) == v
    ensures forall j: Key | j != k :: Get(r.fields, j) == Get(f, j)
    ensures r.emitted == PayloadOf(r.fields)
  {
    var updated := Set(f, k, v);
    Changed(updated, PayloadOf(updated))
  }

  /** `Object.values(filters).some(v => v)`. */
  predicate HasActive(f: Fields)
    ensures !HasActive(f) <==> f == Fields("", "", "", "")
  {
    f.kind != "" || f.status != "" || f.minAmount != "" || f.maxAmount != ""
  }

  /** The badge shows exactly when some key's field is non-empty, which is
      exactly when the last payload sent was not empty. */
  lemma HasActiveIff(f: Fields)
    ensures HasActive(f) <==> exists k: Key :: Get(f, k) != ""
    ensures HasActive(f) <==> PayloadOf(f) != EmptyPayload
  {
    if HasActive(f) {
      var k: Key := if f.kind != "" then Type else if f.status != "" then Status
                    else if f.minAmount != "" then MinAmount else MaxAmount;
      assert Get(f, k) != "";
    }
  }

  /** The clear button: every field emptied and an empty payload sent. */
  function Clear(): (r: Changed)
    ensures !HasActive(r.fields)
    ensures r.emitted == PayloadOf(r.fields) == EmptyPayload
    ensures forall k: Key :: Get(r.fields, k) == ""
  {
    Changed(Cleared, EmptyPayload)
  }

  /** Clearing is what emptying the four fields one by one ends in. */
  lemma ClearIsFourChanges(f: Fields)
    ensures Change(Change(Change(Change(f, Type, "").fields, Status, "").fields, MinAmount, "").fields, MaxAmount, "") == Clear()
  {
  }

  /** The range is sent as typed: a minimum above the maximum is passed on. */
  lemma NoRangeCheck(f: Fields, lo: nat, hi: nat)
    requires f.minAmount == Decimal(lo) && f.maxAmount == Decimal(hi)
    ensures PayloadOf(f).minAmount == Some(Num(lo as real))
    ensures PayloadOf(f).maxAmount == Some(Num(hi as real))
  {
    ParseDecimal(lo);
    ParseDecimal(hi);
  }

  /** A non-empty amount that does not start a number is still sent, as NaN. */
  lemma UnreadableAmountSentAsNaN(f: Fields, v: string)
    requires v != "" && !IsDigit(v[0]) && v[0] !in "+-."
    ensures Change(f, MinAmount, v).emitted.minAmount == Some(NaN)
    ensures Change(f, MaxAmount, v).emitted.maxAmount == Some(NaN)
  {
    assert DigitRun(v) == 0;
  }
}

=== FILE: wallet.dfy ===
/** The wallet card: a balance that the two buttons move by a fixed 50, the
    withdrawal clamped at zero, and a transaction list that is only shown.
    Balances are exact reals here. */
module Wallet {
  import opened Ledger

  const Step := 50.0

  const InitialBalance := 1250.5

  /** The deposit button: `b => b + 50`. */
  function Deposit(b: real): (r: real)
    ensures r - b == Step
  {
    b + Step
  }

  /** The withdraw button: `b => Math.max(0, b - 50)`. */
  function Withdraw(b: real): (r: real)
    ensures r >= 0.0
    ensures b >= Step ==> r == b - Step
    ensures b <= Step ==> r == 0.0
    ensures r <= b || b < 0.0
  {
    if b - Step > 0.0 then b - Step else 0.0
  }

  datatype Op = DepositOp | WithdrawOp

  function Apply(b: real, op: Op): real
  {
    match op
    case DepositOp => Deposit(b)
    case WithdrawOp => Withdraw(b)
  }

  /** The balance after the buttons `ops` are pressed, in order. */
  function Run(b: real, ops: seq<Op>): real
    decreases |ops|
  {
    if ops == [] then b else Run(Apply(b, ops[0]), ops[1..])
  }

  /** From a non-negative balance, no sequence of presses makes it negative. */
  lemma {:induction false} RunNonNegative(b: real, ops: seq<Op>)
    requires b >= 0.0
    ensures Run(b, ops) >= 0.0
    decreases |ops|
  {
    if ops != [] {
      RunNonNegative(Apply(b, ops[0]), ops[1..]);
    }
  }

  /** The balance is never above the start plus 50 per deposit pressed. */
  lemma {:induction false} RunBounded(b: real, ops: seq<Op>)
    requires b >= 0.0
    ensures Run(b, ops) <= b + Step * (Deposits(ops) as real)
    decreases |ops|
  {
    if ops != [] {
      RunBounded(Apply(b, ops[0]), ops[1..]);
    }
  }

  function Deposits(ops: seq<Op>): (n: nat)
    ensures n <= |ops|
    decreases |ops|
  {
    if ops == [] then 0 else (if ops[0] == DepositOp then 1 else 0) + Deposits(ops[1..])
  }

  /** A deposit is undone by a withdrawal exactly when the balance was not negative. */
  lemma DepositThenWithdraw(b: real)
    ensures Withdraw(Deposit(b)) == b <==> b >= 0.0
  {
  }

  /** A withdrawal is undone by a deposit exactly when at least 50 was there. */
  lemma WithdrawThenDeposit(b: real)
    ensures Deposit(Withdraw(b)) == b <==> b >= Step
  {
  }

  /** Component state: the balance and the transaction list, which has no setter. */
  datatype State = State(balance: real, transactions: seq<Transaction>)

  const PersianDay := "\U{0631}\U{0648}\U{0632}"
  const PersianWeek := "\U{0647}\U{0641}\U{062A}\U{0647}"
  const PersianAgo := "\U{067E}\U{06CC}\U{0634}"

  const Initial := State(InitialBalance, [
    Transaction("1", TxType.Deposit, 500, "2 " + PersianDay + " " + PersianAgo, Completed),
    Transaction("2", TxType.Withdraw, 200, "1 " + PersianWeek + " " + PersianAgo, Completed),
    Transaction("3", TxType.Deposit, 1000, "2 " + PersianWeek + " " + PersianAgo, Completed)])

  function Press(s: State, op: Op): (r: State)
    ensures r.transactions == s.transactions
    ensures r.balance == Apply(s.balance, op)
  {
    s.(balance := Apply(s.balance, op))
  }

  function RunState(s: State, ops: seq<Op>): State
    decreases |ops|
  {
    if ops == [] then s else RunState(Press(s, ops[0]), ops[1..])
  }

  /** Pressing buttons moves the balance as `Run` says and never touches the list. */
  lemma {:induction false} RunStateIsRun(s: State, ops: seq<Op>)
    ensures RunState(s, ops).transactions == s.transactions
    ensures RunState(s, ops).balance == Run(s.balance, ops)
    decreases |ops|
  {
    if ops != [] {
      RunStateIsRun(Press(s, ops[0]), ops[1..]);
    }
  }

  /** From the initial state the balance stays non-negative and the list stays the seeded three. */
  lemma InitialInvariant(ops: seq<Op>)
    ensures RunState(Initial, ops).balance >= 0.0
    ensures RunState(Initial, ops).transactions == Initial.transactions
    ensures |RunState(Initial, ops).transactions| == 3
  {
    RunStateIsRun(Initial, ops);
    RunNonNegative(InitialBalance, ops);
  }

  /** The sign shown before a transaction's amount. */
  function SignPrefix(k: TxType): (sign: string)
    ensures |sign| == 1
    ensures sign == "+" <==> k.Deposit?
    ensures sign == "-" <==> k.Withdraw?
  {
    assert "+"[0] != "-"[0];
    if k.Deposit? then "+" else "-"
  }
}

=== FILE: withdraw_modal.dfy ===
/** The withdrawal dialog: an amount typed as text and a two-factor checkbox.
    The amount is read with `parseFloat`; a withdrawal is sent only when it is
    positive, at most the balance, and the box is checked. */
module WithdrawModal {
  import opened Common
  import opened Text
  import opened Numbers

  datatype Form = Form(amount: string, agree2fa: bool)

  const Initial := Form("", false)

  /** `isValid`: the value the submit button's state is derived from. */
  predicate IsValid(f: Form, balance: real)
    ensures IsValid(f, balance) ==> f.amount != "" && f.agree2fa && balance > 0.0
  {
    Above(ParseFloat(f.amount), 0.0) && AtMost(ParseFloat(f.amount), balance) && f.agree2fa
  }

  /** The new form and the amount passed to `onSubmit`, if it was called. */
  datatype Submitted = Submitted(form: Form, sent: Option<real>)

  /** `handleSubmit`, with its own guard `num > 0 && num <= balance && agree2fa`:
      it agrees with `isValid`, sends the parsed number, and resets the form;
      a rejected submit changes nothing. */
  function Submit(f: Form, balance: real): (r: Submitted)
    ensures r.sent.Some? <==> IsValid(f, balance)
    ensures r.sent.Some? ==> ParseFloat(f.amount) == Num(r.sent.value)
    ensures r.sent.Some? ==> 0.0 < r.sent.value <= balance
    ensures r.sent.Some? ==> r.form == Initial
    ensures r.sent.None? ==> r.form == f
  {
    var num := ParseFloat(f.amount);
    if num.Num? && num.value > 0.0 && num.value <= balance && f.agree2fa then
      Submitted(Form("", false), Some(num.value))
    else
      Submitted(f, None)
  }

  /** `disabled={!isValid || loading}`. */
  predicate Disabled(f: Form, balance: real, loading: bool)
    ensures loading ==> Disabled(f, balance, loading)
    ensures !Disabled(f, balance, loading) ==> Submit(f, balance).sent.Some?
  {
    !IsValid(f, balance) || loading
  }

  /** An enabled button always sends; when not loading, a disabled one would do nothing. */
  lemma ButtonMatchesSubmit(f: Form, balance: real, loading: bool)
    ensures !Disabled(f, balance, loading) ==> Submit(f, balance).sent.Some?
    ensures Disabled(f, balance, false) ==> Submit(f, balance) == Submitted(f, None)
  {
  }

  /** Nothing that does not start with a number is valid, the empty amount included. */
  lemma UnreadableAmountInvalid(f: Form, balance: real)
    requires f.amount == "" || (!IsDigit(f.amount[0]) && f.amount[0] !in "+-.")
    ensures !IsValid(f, balance)
    ensures Submit(f, balance).sent.None?
  {
    assert f.amount != "" ==> DigitRun(f.amount) == 0;
  }

  /** Withdrawing the whole balance is allowed. */
  lemma FullBalanceAllowed(n: nat)
    requires n > 0
    ensures IsValid(Form(Decimal(n), true), n as real)
    ensures Submit(Form(Decimal(n), true), n as real).sent == Some(n as real)
  {
    ParseDecimal(n);
  }

  /** One unit more than the balance is refused, and so is an unchecked box. */
  lemma OverBalanceOrUncheckedRefused(n: nat, checked: bool)
    ensures !IsValid(Form(Decimal(n + 1), checked), n as real)
    ensures !IsValid(Form(Decimal(n), false), n as real)
  {
    ParseDecimal(n + 1);
  }

  /** `parseFloat` reads a prefix: an amount followed by other text is accepted as that amount. */
  lemma TrailingTextAccepted(n: nat, rest: string, balance: real)
    requires 0 < n && n as real <= balance
    requires rest != [] && StopsNumber(rest[0])
    ensures Submit(Form(Decimal(n) + rest, true), balance).sent == Some(n as real)
  {
    ParseFloatIgnoresTrailing(n, rest);
  }

  /** After a withdrawal the form cannot be sent again until it is filled in anew. */
  lemma SubmittedFormInvalid(f: Form, balance: real)
    requires IsValid(f, balance)
    ensures !IsValid(Submit(f, balance).form, balance)
  {
  }
}
